=== FILE: README.md ===
# Opentrons flow adapters — a Dafny model of their decision logic

The repository is a set of flow-editor nodes that turn events into calls on the
Opentrons robot HTTP API: run management, commands on a run, maintenance runs
and their commands, protocols, and the rail lights. Each node first makes a
pure decision: which request, if any, to send. It then makes one HTTP call and
passes the response on. This project models that decision step for every node
of the core. It also models the in-memory cache of maintenance-run IDs that the
maintenance-run node writes into its sibling command nodes.

Modules, one per source component:

- `Js` (`js.dfy`): JavaScript values (`Undef | Null | Bool | Num | NaN | Str | Arr | Obj`), truthiness, `||`,
  property reads, `===`, and object spread.
- `Wrappers` (`wrappers.dfy`): `Option` and `Result`.
- `Adapter` (`adapter.dfy`): what every node shares. This is the server descriptor with its 31950 port
  default, the `Opentrons-Version: 3` and optional `authenticationBearer` headers, the errors, and
  `Deliver`, which turns the decided request and the transport's `Reply` (`HttpOk(data) | HttpErr`)
  into the outgoing message.
- `CommandParams` (`command_params.dfy`): the command-type switch that `opentrons-command.js` and
  `opentrons-maintenance-command.js` both contain, written once as a table of field lines keyed by
  the case the command type selects (`CommandKind`). It is checked against an independent per-type
  whitelist and a name-determined merge rule. It also holds the `msg.params` overlay.
- `RunCommand`, `MaintenanceCommand`, `Run`, `Protocol`, `MaintenanceRun`, `Lights`: one module per node.
- `Registry` (`registry.dfy`): the deployed nodes with their stored `maintenanceRunId`. It holds the
  create and delete updates that the maintenance-run node applies with `autoStore`.

`parseFloat`, `parseInt` and `JSON.parse` are the fields of a `Coercions` record passed in, and are
left uninterpreted. `JSON.parse` answers `None` where it would throw. The HTTP call is the `Reply`
parameter. The host's node registry is the `Flow` sequence parameter.

## Model

| member | source | states |
|---|---|---|
| Adapter.EndpointOf | nodes/runs/opentrons-command.js:17-29 | the call goes to the configured hostname; the port is the configured one when truthy, else 31950 |
| Adapter.ActionOf | nodes/runs/opentrons-run.js:35 | the action is `msg.action` when truthy, else the configured action; the run, protocol and maintenance-run nodes share it |
| Adapter.Headers | nodes/runs/opentrons-command.js:21-27 | `Opentrons-Version` is always "3"; `authenticationBearer` is present exactly when the token is truthy, and holds the token |
| Adapter.Deliver | nodes/runs/opentrons-command.js:135-153 | a validation error sends nothing; a failed call reports the failure and passes no message on; a successful call passes the message on with only `payload` replaced by the response data |
| Js.SpreadOver | nodes/runs/opentrons-command.js:132 | `{...base, ...v}` holds the keys of both, and the spread value wins on shared keys |
| Js.SpreadArray | nodes/runs/opentrons-command.js:132 | spreading an array gives exactly one property per element, keyed by the element's decimal index |
| Js.SpreadString | nodes/runs/opentrons-command.js:132 | spreading a string gives exactly one property per character, keyed by its decimal index and holding that character |
| Js.DecimalStringInjective | nodes/runs/opentrons-command.js:132 | distinct indices have distinct property keys, so no spread element overwrites another |
| CommandParams.AddFields | nodes/runs/opentrons-command.js:52-128 | running the switch lines stores exactly the fields whose merge condition holds, each with its merged and coerced value; it fails exactly when a stored field's coercion throws |
| CommandParams.TableMatchesWhitelist | nodes/runs/opentrons-command.js:52-128 | every case of the switch names exactly the per-type field set of its command type, and each line's rule is the one its field name determines |
| CommandParams.BuildParams | nodes/runs/opentrons-command.js:52-128 | the parameter keys are exactly the whitelisted fields of the command type whose merge condition holds, so no unlisted field appears; each value is the field's merged, coerced value |
| CommandParams.KnownTypesHaveFields | nodes/runs/opentrons-command.js:52-128 | exactly the thirteen recognised command types have fields |
| CommandParams.UnknownTypeBuildsNoParams | nodes/runs/opentrons-command.js:52-128 | an unrecognised command type still builds, with empty parameters |
| CommandParams.TruthyFieldPrecedence | nodes/runs/opentrons-command.js:55-61 | an or-merged field is present iff the message or the configuration value is truthy; a truthy message value wins, else the configuration value, then the field's coercion applies |
| CommandParams.ForceDirectPrecedence | nodes/runs/opentrons-command.js:89 | `forceDirect` is present iff either side is not undefined, and a defined message value, an explicit false included, overrides the configuration |
| CommandParams.HomeKind | nodes/runs/opentrons-command.js:52-113 | the switch takes the `home` case exactly for the string "home"; `switch` compares with `===`, so no other value reaches it |
| CommandParams.AxesOnlyInHome | nodes/runs/opentrons-command.js:113-118 | `axes` is a field of the home command only |
| CommandParams.OnlyAxesCanFail | nodes/runs/opentrons-command.js:113-118 | building parameters fails exactly for a home command whose merged `axes` is a string that JSON.parse rejects |
| CommandParams.WithMessageParams | nodes/runs/opentrons-command.js:131-133 | a falsy `msg.params` changes nothing; a truthy one adds its spread properties, which override built ones, and keeps every other built field |
| CommandParams.BuildCommand | nodes/runs/opentrons-command.js:40-133 | the command type is `msg.commandType` if truthy else the configured one; it is an error iff both are falsy; otherwise the parameters are the switch's, overlaid by `msg.params` |
| CommandParams.ParamsWithinWhitelist | nodes/runs/opentrons-command.js:52-133 | without `msg.params`, the posted parameter keys are a subset of the command type's whitelist |
| CommandParams.MessageParamsOverride | nodes/runs/opentrons-command.js:131-133 | an object `msg.params` overrides every built field it names and may add fields outside the whitelist; all other built fields are unchanged |
| CommandParams.CommandBody | nodes/runs/opentrons-command.js:135-137 | the body is `{data: {commandType, params}}` |
| RunCommand.Decide | nodes/runs/opentrons-command.js:12-140 | in order: no server, then no truthy run ID, then the builder's errors; on success the call is POST `/runs/{runId}/commands` with the built command as body |
| RunCommand.Handle | nodes/runs/opentrons-command.js:131-153 | the request sent is exactly the one `RunCommand.Decide` chooses, and its error is the one returned when it chooses none; nothing is sent iff the event fails validation; a message is passed on iff the POST succeeds, with its payload replaced by the response data |
| RunCommand.RunIdPrecedence | nodes/runs/opentrons-command.js:34-37 | with neither `msg.runId` nor `msg.payload.runId` truthy the result is the run-ID error and no request; `msg.runId` wins over `msg.payload.runId` |
| RunCommand.CommandTypeCheckedSecond | nodes/runs/opentrons-command.js:34-43 | a missing command type is reported only after the run ID check has passed, and nothing is sent |
| RunCommand.PostedRequestShape | nodes/runs/opentrons-command.js:34-140 | with a server, a truthy run ID and a command that builds, the POST is sent; its body carries the resolved command type and the built parameters; the headers carry the version and, iff the token is truthy, the bearer |
| MaintenanceCommand.FirstRunSibling | nodes/maintenance/opentrons-maintenance-command.js:42-50 | the scan stops at the first maintenance-run node on the same server with a truthy ID; no earlier node qualifies, and none at all when it finds nothing |
| MaintenanceCommand.ResolveRunId | nodes/maintenance/opentrons-maintenance-command.js:35-60 | with `autoUseLatest`, a truthy stored ID wins, then a truthy configured ID, then the first sibling's ID; without it, a truthy configured ID wins; a truthy `msg.maintenanceRunId` or `msg.payload.maintenanceRunId` always yields a truthy ID |
| MaintenanceCommand.ScanIsFirstTruthySibling | nodes/maintenance/opentrons-maintenance-command.js:42-50 | the scan's result is the first truthy ID among the same-server maintenance-run nodes, in enumeration order |
| MaintenanceCommand.ResolveIsFirstCandidate | nodes/maintenance/opentrons-maintenance-command.js:35-60 | the resolved ID is the first truthy entry of the priority list: with auto-use the stored ID, the configured ID, the siblings' IDs, then the message's; without it the configured ID, then the message's |
| MaintenanceCommand.ManualModeIgnoresCache | nodes/maintenance/opentrons-maintenance-command.js:52-55 | without `autoUseLatest` the stored and sibling IDs do not affect the resolved ID |
| MaintenanceCommand.Decide | nodes/maintenance/opentrons-maintenance-command.js:12-167 | no resolvable ID is an error before any request; otherwise the builder decides; on success the call is POST `/maintenance_runs/{id}/commands` with the first truthy candidate as ID; every request goes to the configured host and port (31950 when unset) with the shared headers (`Adapter.EndpointOf`, `Adapter.Headers`) |
| MaintenanceCommand.Handle | nodes/maintenance/opentrons-maintenance-command.js:162-172 | the request sent is exactly the POST `MaintenanceCommand.Decide` chooses, and its error is the one returned when it chooses none; nothing is sent iff validation fails; a message is passed on iff the POST succeeds, with the response data as payload |
| MaintenanceCommand.IdCheckedBeforeCommandType | nodes/maintenance/opentrons-maintenance-command.js:62-70 | with no resolvable ID the result is the ID error, whatever the command type |
| MaintenanceCommand.SameBodyAsRunCommand | nodes/maintenance/opentrons-maintenance-command.js:79-160 | for the same message and configuration both command nodes post the same body and headers, and fail with the same builder error |
| Registry.StoreCreated | nodes/maintenance/opentrons-maintenance-run.js:47-71 | create with `autoStore` sets the creating node's ID and that of every command node on the same server whose `autoUseLatest` is not false; every other node is unchanged |
| Registry.ClearDeleted | nodes/maintenance/opentrons-maintenance-run.js:96-114 | delete with `autoStore` sets the deleting node's ID to "" and clears a same-server command node only if it holds the deleted ID |
| Registry.StoreCreatedIdempotent | nodes/maintenance/opentrons-maintenance-run.js:47-71 | storing the same created ID twice equals storing it once |
| Registry.DeleteKeepsOtherIds | nodes/maintenance/opentrons-maintenance-run.js:104-113 | a command node holding another ID, or on another server, keeps its value through a delete |
| Registry.CreateThenDeleteClears | nodes/maintenance/opentrons-maintenance-run.js:47-113 | after create stores X and delete removes X, every node that received X holds "", and every other node is as the delete alone leaves it |
| MaintenanceRun.TargetId | nodes/maintenance/opentrons-maintenance-run.js:75-89 | for get and delete the configured ID wins, then `msg.maintenanceRunId`, then `msg.payload.maintenanceRunId`, whatever that holds; it is truthy iff one of them is, and then it is the first truthy entry of that priority list |
| MaintenanceRun.Decide | nodes/maintenance/opentrons-maintenance-run.js:12-126 | an unknown action is an error iff the action is not create, get, delete or current; get and delete fail iff no ID resolves, with the "Maintenance Run ID is required" error naming the action; create and current always decide a request; every request goes to the configured host and port (31950 when unset) with the shared headers (`Adapter.EndpointOf`, `Adapter.Headers`) |
| MaintenanceRun.DecideRoundTrip | nodes/maintenance/opentrons-maintenance-run.js:37-126 | each issued request reads back as the action that chose it; get and delete carry the resolved ID; only create has a body, `{data: {}}` |
| MaintenanceRun.CreatedId | nodes/maintenance/opentrons-maintenance-run.js:47-48 | a created ID is read only when the response data and its `data` field are both truthy, and it is then `data.data.id` |
| MaintenanceRun.Handle | nodes/maintenance/opentrons-maintenance-run.js:35-133 | without a server the result is the missing-server error and nothing changes; otherwise the request sent is exactly the one `MaintenanceRun.Decide` chooses for the resolved action (a truthy `msg.action`, else the configured one), and its error is the one returned when it chooses none; a failed or rejected event changes no stored ID; a successful create records the new ID on the message and, with `autoStore`, in the cache; a successful delete with `autoStore` clears it; other actions leave the cache alone |
| MaintenanceRun.ActionPrecedence | nodes/maintenance/opentrons-maintenance-run.js:35-126 | a truthy `msg.action` beats the configured action; an unknown action sends nothing, reports `Unknown action` and leaves the cache unchanged |
| MaintenanceRun.CreatePublishesId | nodes/maintenance/opentrons-maintenance-run.js:39-133 | create POSTs `/maintenance_runs` with `{data: {}}` and sets `msg.maintenanceRunId` to the returned ID whether or not `autoStore` is on; without it no stored ID changes |
| MaintenanceRun.CreatedIdReachesCommandNodes | nodes/maintenance/opentrons-maintenance-run.js:47-71 | after a create with `autoStore`, every eligible command node using the latest run resolves exactly the new ID |
| MaintenanceRun.CreateThenDeleteRoundTrip | nodes/maintenance/opentrons-maintenance-run.js:47-113 | creating X and then deleting X through the node, both with `autoStore`, leaves every node that received X holding "" |
| Run.RunIdOf | nodes/runs/opentrons-run.js:46-50 | the run ID is `msg.runId` when truthy, else `msg.payload.runId`; a truthy result is the first truthy entry of that priority list |
| Run.Decide | nodes/runs/opentrons-run.js:12-84 | an unknown action is an error; get and delete fail iff no run ID is in the message, with the action's own error; create, list and current always decide a request; every request goes to the configured host and port (31950 when unset) with the shared headers (`Adapter.EndpointOf`, `Adapter.Headers`) |
| Run.DecideRoundTrip | nodes/runs/opentrons-run.js:37-84 | each issued request reads back as the action that chose it; create POSTs `msg.payload`, or `{}` when it is falsy; no other action has a body |
| Run.Handle | nodes/runs/opentrons-run.js:35-89 | the request sent, run ID in the path included, is exactly the one `Run.Decide` chooses for the resolved action, and its error is the one returned when it chooses none; nothing is sent iff the event fails validation; on success the payload is exactly the response data; the request matches the chosen action |
| Run.ActionPrecedence | nodes/runs/opentrons-run.js:35-83 | a truthy `msg.action` beats the configured action; an unknown action sends nothing and reports `Unknown action` |
| Protocol.ProtocolIdOf | nodes/protocols/opentrons-protocol.js:46-49 | the protocol ID is `msg.protocolId` when truthy, else `msg.payload.protocolId`, whatever that holds; a truthy result is the first truthy entry of that priority list; nothing else is consulted |
| Protocol.Decide | nodes/protocols/opentrons-protocol.js:12-80 | an unknown action is an error; list always decides a request; get, delete and analyze fail iff no protocol ID is in the message, with an error naming the action; every request goes to the configured host and port (31950 when unset) with the shared headers (`Adapter.EndpointOf`, `Adapter.Headers`) |
| Protocol.DecideRoundTrip | nodes/protocols/opentrons-protocol.js:37-80 | each issued request reads back as the action that chose it; delete is DELETE `/protocols/{id}`; analyze is POST `/protocols/{id}/analyses` with an empty body |
| Protocol.Handle | nodes/protocols/opentrons-protocol.js:35-85 | the request sent, protocol ID in the path included, is exactly the one `Protocol.Decide` chooses for the resolved action, and its error is the one returned when it chooses none; nothing is sent iff the event fails validation; on success the payload is exactly the response data |
| Lights.LightsOnCases | nodes/robot/opentrons-lights.js:30-36 | a boolean payload, or an object payload's defined `on`, overrides `config.lightsOn`; any other payload leaves the configured value |
| Lights.Decide | nodes/robot/opentrons-lights.js:10-46 | without a server the result is the missing-server error; otherwise the request is POST `/robot/lights` with body exactly `{on: lightsOn}`, to the configured host and port (31950 when unset), with the shared headers |
| Lights.StatusText | nodes/robot/opentrons-lights.js:49 | the status reads "on" iff the resolved state is truthy, "off" otherwise |
| Lights.Handle | nodes/robot/opentrons-lights.js:10-51 | the request sent is exactly the POST `Lights.Decide` chooses; a request is sent iff a server is configured, and without one the result is the missing-server error whatever the payload; the message is passed on iff the call succeeds; the status text is shown only then |

## Behaviour to note

- For the maintenance-run node's get and delete, the configured `maintenanceRunId` wins over
  `msg.maintenanceRunId` and `msg.payload.maintenanceRunId`
  (nodes/maintenance/opentrons-maintenance-run.js:75,86; `MaintenanceRun.TargetId`).
- The maintenance command node also puts the configuration first. Its chain reads
  `config.maintenanceRunId` and, with `autoUseLatest`, the stored and sibling IDs before
  `msg.maintenanceRunId` and `msg.payload.maintenanceRunId`
  (nodes/maintenance/opentrons-maintenance-command.js:37-60; `MaintenanceCommand.ResolveRunId`).
- The run, protocol and command nodes let the event's value win: `msg.action` over the configured
  action, and `msg.commandType` over the configured command type. Run and protocol IDs come from the
  message alone.
- A created maintenance-run ID reaches other nodes only under three conditions:
  - The create must run with `autoStore` on (nodes/maintenance/opentrons-maintenance-run.js:47).
  - Only command nodes on the same server whose `autoUseLatest` is not `false` receive it (lines 60-70).
  - A command node then uses the stored ID only when its own `autoUseLatest` is truthy
    (nodes/maintenance/opentrons-maintenance-command.js:37).

  `MaintenanceRun.CreatedIdReachesCommandNodes` states the combined effect.
- An unrecognised command type is not rejected. The switch has no `default` case
  (nodes/runs/opentrons-command.js:52-128), so the command is posted with empty parameters, plus
  `msg.params` if given (`CommandParams.UnknownTypeBuildsNoParams`).

## Left out

- The HTTP transport (axios) is the `Reply` parameter. The base-URL string and the interpolation of an
  ID into a path are kept symbolic: `Endpoint` holds the hostname and port, and `Path.WithId` holds
  the interpolated value. JavaScript's conversion of that value to text is not modelled.
- The host framework's plumbing is left out: node registration, status colours and shapes, the
  `close` handler, `RED.nodes.dirty`, credential storage, and the choice between `done(error)` and
  `node.error`. Both of those report the same error.
- The host registry's own behaviour is outside this model. `Flow` holds one record per node. That
  record stands for both the configuration object the host enumerates and the running instance
  `getNode` returns. `getNode` is taken to always find the node.
- MaintenanceCommand.FirstRunSibling: stops the sibling scan at the first match, as the callback's
  `return false` intends (nodes/maintenance/opentrons-maintenance-command.js:48). Whether returning
  false stops the iteration is up to the host's `eachNode`. If it does not, the scan keeps assigning,
  and the LAST same-server maintenance-run node with a truthy ID wins instead of the first. The
  model does not cover that reading.
- `nodes/modules/opentrons-modules.js`: a single unconditional GET `/modules` with the shared headers.
  It adds nothing beyond `Adapter.Headers` and `Adapter.Deliver`.
- `nodes/config/opentrons-config.js`: a constructor that copies fields. Its port default is the
  adapters' own default in `Adapter.EndpointOf`.
- `parseFloat`, `parseInt` and `JSON.parse` are uninterpreted, being floating-point and library
  behaviour. Only which keys appear, and that `JSON.parse` may throw, are stated.
- Numbers are `Num(real)` plus `NaN`. Infinities and the sign of zero are not represented.
- Object identity is not modelled: `===` on two objects or arrays is taken as false.
  `Registry.ClearDeleted` therefore never clears a node whose stored ID is an object.
- Property reads on strings, numbers and arrays give undefined. The keys read here are not inherited
  properties of those types.
- Concurrent events racing on the cached ID are out of scope. Each event is one atomic step.
- Lights.Handle: requires a non-null `msg.payload` when a server is configured, and so does
  `Lights.Decide`; `Lights.LightsOn` and `Lights.LightsOnCases` always require it. With a server
  configured, the node reads `msg.payload.on` on a null payload outside its error handling, so that
  event crashes the handler rather than reporting an error. Without a server, the missing-server
  error comes first and a null payload is handled like any other.
- Js.SpreadString: keys a string's properties by Unicode scalar value (a Dafny `char`). JavaScript
  keys them by UTF-16 code unit, so a character outside the Basic Multilingual Plane, such as an
  emoji, gives one property here and two, one per surrogate, in JavaScript. This affects only a
  string `msg.params`.

=== FILE: adapter.dfy ===
/**
 * What every adapter shares: the server descriptor, the request it issues,
 * the version and bearer headers, the errors it reports, and how the one HTTP
 * call's answer becomes the outgoing message.
 */
module Adapter {
  import opened Js
  import opened Wrappers

  /** The port used when the server descriptor leaves it empty. */
  const DefaultPort: real := 31950.0

  /** The value of the `Opentrons-Version` header sent with every call. */
  const ApiVersion: string := "3"

  /** The server configuration node: hostname, port and optional bearer token. */
  datatype Server = Server(hostname: Value, port: Value, token: Value)

  /** Where a request goes: `http://{hostname}:{port}`, kept as its two parts. */
  datatype Endpoint = Endpoint(hostname: Value, port: Value)

  datatype Method = GET | POST | DELETE

  /** A request path; an interpolated identifier is kept as the value interpolated. */
  datatype Path =
    | Fixed(text: string)
    | WithId(prefix: string, id: Value, suffix: string)

  /** One HTTP call; `body` is absent for GET and DELETE. */
  datatype Request = Request(verb: Method, path: Path, body: Option<Value>, endpoint: Endpoint, headers: Fields)

  /** The transport's answer: the decoded response body, or a failure. */
  datatype Reply = HttpOk(data: Value) | HttpErr(reason: string)

  datatype Error =
    | NoServer                                  // "No server configuration specified"
    | RunIdRequired                             // command node: no run ID in the message
    | CommandTypeRequired                       // "Command type is required"
    | MaintenanceRunIdRequired                  // maintenance command node: no ID from any source
    | IdRequiredFor(entity: string, action: string)  // "<entity> ID is required for <action> action"
    | UnknownAction(given: Value)               // "Unknown action: <action>"
    | InvalidJson(text: string)                 // JSON.parse threw on a string field
    | Transport(reason: string)                 // the HTTP call failed

  /** Errors raised by the decision step, before any request is issued. */
  predicate IsValidationError(e: Error)
  {
    !e.Transport?
  }

  /** What handling one event produced: the request sent, if any, and the message passed on or the error. */
  datatype Outcome = Outcome(sent: Option<Request>, result: Result<Fields, Error>)

  function EndpointOf(server: Server): (e: Endpoint)
    ensures e.hostname == server.hostname
    ensures Truthy(e.port)
    ensures Truthy(server.port) ==> e.port == server.port
    ensures !Truthy(server.port) ==> e.port == Num(DefaultPort)
  {
    Endpoint(server.hostname, Or(server.port, Num(DefaultPort)))
  }

  /**
   * The action a dispatching node acts on: `msg.action || node.action`, where
   * the node's action is the configured one.
   */
  function ActionOf(msg: Fields, config: Fields): (a: Value)
    ensures Truthy(Field(msg, "action")) ==> a == Field(msg, "action")
    ensures !Truthy(Field(msg, "action")) ==> a == Field(config, "action")
  {
    Or(Field(msg, "action"), Field(config, "action"))
  }

  /** The headers of every call: the API version, and the bearer token only when it is truthy. */
  function Headers(token: Value): (h: Fields)
    ensures "Opentrons-Version" in h && h["Opentrons-Version"] == Str(ApiVersion)
    ensures "authenticationBearer" in h <==> Truthy(token)
    ensures "authenticationBearer" in h ==> h["authenticationBearer"] == token
    ensures h.Keys <= {"Opentrons-Version", "authenticationBearer"}
  {
    var base := map["Opentrons-Version" := Str(ApiVersion)];
    if Truthy(token) then base["authenticationBearer" := token] else base
  }

  /** A request to `server` carrying the shared endpoint and headers. */
  function Call(server: Server, verb: Method, path: Path, body: Option<Value>): (r: Request)
    ensures r.verb == verb && r.path == path && r.body == body
    ensures r.endpoint == EndpointOf(server) && r.headers == Headers(server.token)
  {
    Request(verb, path, body, EndpointOf(server), Headers(server.token))
  }

  /**
   * Issues the decided request, if any. A validation error sends nothing; a
   * failed call reports the failure and passes no message on; a successful one
   * passes the message on with its payload replaced by the response data.
   */
  function Deliver(decision: Result<Request, Error>, msg: Fields, reply: Reply): (o: Outcome)
    ensures decision.Err? ==> o.sent.None? && o.result == Err(decision.error)
    ensures decision.Ok? ==> o.sent == Some(decision.value)
    ensures decision.Ok? && reply.HttpErr? ==> o.result == Err(Transport(reply.reason))
    ensures decision.Ok? && reply.HttpOk? ==>
              o.result.Ok? && o.result.value.Keys == msg.Keys + {"payload"}
              && o.result.value["payload"] == reply.data
              && forall k :: k in msg && k != "payload" ==> o.result.value[k] == msg[k]
  {
    match decision
    case Err(e) => Outcome(None, Err(e))
    case Ok(req) =>
      match reply
      case HttpErr(reason) => Outcome(Some(req), Err(Transport(reason)))
      case HttpOk(data) => Outcome(Some(req), Ok(msg["payload" := data]))
  }
}

=== FILE: command_params.dfy ===
/**
 * The command request builder shared, line for line, by the run command node
 * and the maintenance command node: the command type, the per-type parameter
 * switch merging message and configuration fields, and the `msg.params`
 * overlay.
 */
module CommandParams {
  import opened Js
  import opened Wrappers
  import opened Adapter

  /**
   * `parseFloat`, `parseInt` and `JSON.parse`, left uninterpreted. `parseJson`
   * answers None where `JSON.parse` throws.
   */
  datatype Coercions = Coercions(parseFloat: Value -> Value, parseInt: Value -> Value, parseJson: string -> Option<Value>)

  /** What a field's merged value goes through before it is stored. */
  datatype Coercion = AsIs | ToFloat | ToInt | JsonIfString

  /** How one parameter is merged from the message and the configuration. */
  datatype Rule =
    | TruthyMerge(coercion: Coercion)   // kept when either side is truthy; message value first under `||`
    | DefinedMerge                      // kept when either side is not undefined; message value unless undefined

  /** One line of the command-type switch. */
  datatype FieldRule = FieldRule(name: string, rule: Rule)

  /** A command ready to be posted: its type tag and its parameter object. */
  datatype CommandData = CommandData(commandType: Value, params: Fields)

  function Plain(name: string): FieldRule
  {
    FieldRule(name, TruthyMerge(AsIs))
  }

  function Float(name: string): FieldRule
  {
    FieldRule(name, TruthyMerge(ToFloat))
  }

  /** The case labels of the command-type switch; `switch` compares with `===`. */
  datatype CommandKind =
    | Aspirate | Dispense | Blowout | PickUpTip | DropTip | MoveToWell | MoveLabware
    | LoadLabware | LoadPipette | Home | WaitForResume | Pause | Delay
    | Unrecognised

  /** The case a command type selects; anything but a recognised string falls through. */
  function KindOf(commandType: Value): CommandKind
  {
    match commandType
    case Str(t) =>
      if t == "aspirate" then Aspirate
      else if t == "dispense" then Dispense
      else if t == "blowout" then Blowout
      else if t == "pickUpTip" then PickUpTip
      else if t == "dropTip" then DropTip
      else if t == "moveToWell" then MoveToWell
      else if t == "moveLabware" then MoveLabware
      else if t == "loadLabware" then LoadLabware
      else if t == "loadPipette" then LoadPipette
      else if t == "home" then Home
      else if t == "waitForResume" then WaitForResume
      else if t == "pause" then Pause
      else if t == "delay" then Delay
      else Unrecognised
    case _ => Unrecognised
  }

  /** The lines naming the pipette, labware and well, shared by the liquid-handling cases. */
  const WellLines: seq<FieldRule> := [Plain("pipetteId"), Plain("labwareId"), Plain("wellName")]

  /** The lines placing the pipette within the well. */
  const PlacementLines: seq<FieldRule> := [Plain("wellLocation"), Plain("offset")]

  const AspirateLines: seq<FieldRule> := [Float("volume"), Float("flowRate")]
  const BlowoutLines: seq<FieldRule> := [Float("flowRate")]
  const MoveLines: seq<FieldRule> := [Float("minimumZHeight"), FieldRule("forceDirect", DefinedMerge), Float("speed")]
  const MoveLabwareLines: seq<FieldRule> := [Plain("labwareId"), Plain("newLocation"), Plain("strategy")]
  const LabwareNameLines: seq<FieldRule> := [Plain("location"), Plain("loadName"), Plain("namespace")]
  const LabwareVersionLines: seq<FieldRule> := [FieldRule("version", TruthyMerge(ToInt)), Plain("labwareId")]
  const LoadPipetteLines: seq<FieldRule> := [Plain("pipetteName"), Plain("mount"), Plain("pipetteId")]
  const HomeLines: seq<FieldRule> := [FieldRule("axes", TruthyMerge(JsonIfString))]
  const MessageLines: seq<FieldRule> := [Plain("message")]
  const DelayLines: seq<FieldRule> := [Float("seconds")]

  /** The parameter lines of each case of the switch, in source order. */
  function FieldTable(kind: CommandKind): seq<FieldRule>
  {
    match kind
    case Aspirate | Dispense => WellLines + AspirateLines + PlacementLines
    case Blowout => WellLines + BlowoutLines + PlacementLines
    case PickUpTip | DropTip => WellLines + PlacementLines
    case MoveToWell => WellLines + PlacementLines + MoveLines
    case MoveLabware => MoveLabwareLines
    case LoadLabware => LabwareNameLines + LabwareVersionLines
    case LoadPipette => LoadPipetteLines
    case Home => HomeLines
    case WaitForResume | Pause => MessageLines
    case Delay => DelayLines
    case Unrecognised => []
  }

  /** Every line's rule is the one its field name determines. */
  predicate RulesByName(fs: seq<FieldRule>)
  {
    forall i :: 0 <= i < |fs| ==> fs[i].rule == RuleOf(fs[i].name)
  }

  function Names(fs: seq<FieldRule>): set<string>
  {
    if fs == [] then {} else {fs[0].name} + Names(fs[1..])
  }

  // ---------------------------------------------------------------------------
  // The reference description the switch is checked against.
  // ---------------------------------------------------------------------------

  /** The command types the switch recognises. */
  const KnownCommandTypes: set<string> :=
    {"aspirate", "dispense", "blowout", "pickUpTip", "dropTip", "moveToWell", "moveLabware",
     "loadLabware", "loadPipette", "home", "waitForResume", "pause", "delay"}

  /** The fields locating a well, shared by every liquid-handling and tip command. */
  const WellTarget: set<string> := {"pipetteId", "labwareId", "wellName", "wellLocation", "offset"}

  /** The per-type field set: the fields each command type accepts; unknown types accept none. */
  function Whitelist(kind: CommandKind): set<string>
  {
    match kind
    case Aspirate | Dispense => WellTarget + {"volume", "flowRate"}
    case Blowout => WellTarget + {"flowRate"}
    case PickUpTip | DropTip => WellTarget
    case MoveToWell => WellTarget + {"minimumZHeight", "forceDirect", "speed"}
    case MoveLabware => {"labwareId", "newLocation", "strategy"}
    case LoadLabware => {"location", "loadName", "namespace", "version", "labwareId"}
    case LoadPipette => {"pipetteName", "mount", "pipetteId"}
    case Home => {"axes"}
    case WaitForResume | Pause => {"message"}
    case Delay => {"seconds"}
    case Unrecognised => {}
  }

  /** Numeric fields go through parseFloat, `version` through parseInt, `axes` through JSON.parse. */
  function CoercionOf(name: string): Coercion
  {
    if name in {"volume", "flowRate", "minimumZHeight", "speed", "seconds"} then ToFloat
    else if name == "version" then ToInt
    else if name == "axes" then JsonIfString
    else AsIs
  }

  /** Every field merges under `||` except `forceDirect`, which is tested against undefined. */
  function RuleOf(name: string): Rule
  {
    if name == "forceDirect" then DefinedMerge else TruthyMerge(CoercionOf(name))
  }

  // ---------------------------------------------------------------------------
  // Merging one field.
  // ---------------------------------------------------------------------------

  /** Whether the switch line for `name` stores the field at all. */
  predicate Applies(rule: Rule, name: string, msg: Fields, config: Fields)
  {
    match rule
    case TruthyMerge(_) => Truthy(Field(config, name)) || Truthy(Field(msg, name))
    case DefinedMerge => Field(config, name) != Undef || Field(msg, name) != Undef
  }

  function Coerce(cx: Coercions, c: Coercion, v: Value): Result<Value, Error>
  {
    match c
    case AsIs => Ok(v)
    case ToFloat => Ok(cx.parseFloat(v))
    case ToInt => Ok(cx.parseInt(v))
    case JsonIfString =>
      if v.Str? then
        match cx.parseJson(v.s)
        case Some(parsed) => Ok(parsed)
        case None => Err(InvalidJson(v.s))
      else Ok(v)
  }

  /** The value the switch line for `name` stores, or the error its coercion throws. */
  function FieldValue(cx: Coercions, rule: Rule, name: string, msg: Fields, config: Fields): Result<Value, Error>
  {
    match rule
    case TruthyMerge(c) => Coerce(cx, c, Or(Field(msg, name), Field(config, name)))
    case DefinedMerge => Ok(if Field(msg, name) != Undef then Field(msg, name) else Field(config, name))
  }

  /** `name` is one of the lines `fs` and that line stores it. */
  predicate Stores(fs: seq<FieldRule>, name: string, msg: Fields, config: Fields)
  {
    name in Names(fs) && Applies(RuleOf(name), name, msg, config)
  }

  /** Runs the lines `fs` in order over the parameter object `acc`. */
  function AddFields(cx: Coercions, fs: seq<FieldRule>, msg: Fields, config: Fields, acc: Fields): (r: Result<Fields, Error>)
    requires RulesByName(fs)
    ensures r.Ok? ==> forall k :: k in r.value <==> k in acc || Stores(fs, k, msg, config)
    ensures r.Ok? ==> forall k :: Stores(fs, k, msg, config) ==>
                        k in r.value && FieldValue(cx, RuleOf(k), k, msg, config) == Ok(r.value[k])
    ensures r.Ok? ==> forall k :: k in acc && !Stores(fs, k, msg, config) ==> r.value[k] == acc[k]
    ensures r.Err? ==> exists k :: Stores(fs, k, msg, config) && FieldValue(cx, RuleOf(k), k, msg, config) == Err(r.error)
    ensures r.Err? ==> r.error.InvalidJson?
    ensures r.Ok? <==> forall k :: Stores(fs, k, msg, config) ==> FieldValue(cx, RuleOf(k), k, msg, config).Ok?
    decreases |fs|
  {
    if fs == [] then Ok(acc)
    else
      var f := fs[0];
      if Applies(f.rule, f.name, msg, config) then
        match FieldValue(cx, f.rule, f.name, msg, config)
        case Err(e) => Err(e)
        case Ok(v) => AddFields(cx, fs[1..], msg, config, acc[f.name := v])
      else
        AddFields(cx, fs[1..], msg, config, acc)
  }

  lemma {:induction false} NamesAppend(a: seq<FieldRule>, b: seq<FieldRule>)
    ensures Names(a + b) == Names(a) + Names(b)
    ensures RulesByName(a) && RulesByName(b) ==> RulesByName(a + b)
    decreases |a|
  {
    if a != [] {
      assert (a + b)[1..] == a[1..] + b;
      NamesAppend(a[1..], b);
    } else {
      assert a + b == b;
    }
  }

  lemma WellBlock()
    ensures RulesByName(WellLines) && Names(WellLines) == {"pipetteId", "labwareId", "wellName"}
  {
  }

  lemma PlacementBlock()
    ensures RulesByName(PlacementLines) && Names(PlacementLines) == {"wellLocation", "offset"}
  {
  }

  /** The well and placement lines together name exactly the well-target fields. */
  lemma WellBlocks()
    ensures RulesByName(WellLines + PlacementLines) && Names(WellLines + PlacementLines) == WellTarget
  {
    WellBlock();
    PlacementBlock();
    NamesAppend(WellLines, PlacementLines);
  }

  lemma AspirateBlock()
    ensures RulesByName(AspirateLines) && Names(AspirateLines) == {"volume", "flowRate"}
  {
  }

  lemma BlowoutBlock()
    ensures RulesByName(BlowoutLines) && Names(BlowoutLines) == {"flowRate"}
  {
  }

  lemma MoveBlock()
    ensures RulesByName(MoveLines) && Names(MoveLines) == {"minimumZHeight", "forceDirect", "speed"}
  {
  }

  lemma LabwareNameBlock()
    ensures RulesByName(LabwareNameLines) && Names(LabwareNameLines) == {"location", "loadName", "namespace"}
  {
  }

  lemma LabwareVersionBlock()
    ensures RulesByName(LabwareVersionLines) && Names(LabwareVersionLines) == {"version", "labwareId"}
  {
  }

  /** Three blocks: the well lines, a middle block, the placement lines. */
  lemma {:induction false} Sandwich(mid: seq<FieldRule>)
    requires RulesByName(mid)
    ensures RulesByName(WellLines + mid + PlacementLines)
    ensures Names(WellLines + mid + PlacementLines) == WellTarget + Names(mid)
  {
    WellBlock();
    PlacementBlock();
    NamesAppend(WellLines, mid);
    NamesAppend(WellLines + mid, PlacementLines);
  }

  lemma AspirateRow(kind: CommandKind)
    requires kind == Aspirate || kind == Dispense
    ensures RulesByName(FieldTable(kind)) && Names(FieldTable(kind)) == Whitelist(kind)
  {
    AspirateBlock();
    Sandwich(AspirateLines);
  }

  lemma BlowoutRow()
    ensures RulesByName(FieldTable(Blowout)) && Names(FieldTable(Blowout)) == Whitelist(Blowout)
  {
    BlowoutBlock();
    Sandwich(BlowoutLines);
  }

  lemma TipRow(kind: CommandKind)
    requires kind == PickUpTip || kind == DropTip
    ensures RulesByName(FieldTable(kind)) && Names(FieldTable(kind)) == Whitelist(kind)
  {
    WellBlocks();
  }

  lemma MoveToWellRow()
    ensures RulesByName(FieldTable(MoveToWell)) && Names(FieldTable(MoveToWell)) == Whitelist(MoveToWell)
  {
    WellBlocks();
    MoveBlock();
    NamesAppend(WellLines + PlacementLines, MoveLines);
  }

  lemma MoveLabwareRow()
    ensures RulesByName(FieldTable(MoveLabware)) && Names(FieldTable(MoveLabware)) == Whitelist(MoveLabware)
  {
  }

  lemma LoadLabwareRow()
    ensures RulesByName(FieldTable(LoadLabware)) && Names(FieldTable(LoadLabware)) == Whitelist(LoadLabware)
  {
    LabwareNameBlock();
    LabwareVersionBlock();
    NamesAppend(LabwareNameLines, LabwareVersionLines);
  }

  lemma LoadPipetteRow()
    ensures RulesByName(FieldTable(LoadPipette)) && Names(FieldTable(LoadPipette)) == Whitelist(LoadPipette)
  {
  }

  lemma SingleFieldRow(kind: CommandKind)
    requires kind in {Home, WaitForResume, Pause, Delay}
    ensures RulesByName(FieldTable(kind)) && Names(FieldTable(kind)) == Whitelist(kind)
  {
  }

  /** The switch agrees, case by case, with the whitelist and the name-determined rules. */
  lemma TableMatchesWhitelist(kind: CommandKind)
    ensures RulesByName(FieldTable(kind))
    ensures Names(FieldTable(kind)) == Whitelist(kind)
  {
    match kind
    case Aspirate | Dispense => AspirateRow(kind);
    case Blowout => BlowoutRow();
    case PickUpTip | DropTip => TipRow(kind);
    case MoveToWell => MoveToWellRow();
    case MoveLabware => MoveLabwareRow();
    case LoadLabware => LoadLabwareRow();
    case LoadPipette => LoadPipetteRow();
    case Home | WaitForResume | Pause | Delay => SingleFieldRow(kind);
    case Unrecognised =>
  }

  /** The parameter object the switch builds for `commandType`. */
  function BuildParams(cx: Coercions, commandType: Value, msg: Fields, config: Fields): (r: Result<Fields, Error>)
    ensures r.Ok? ==> forall k :: k in r.value <==> k in Whitelist(KindOf(commandType)) && Applies(RuleOf(k), k, msg, config)
    ensures r.Ok? ==> forall k :: k in r.value ==> FieldValue(cx, RuleOf(k), k, msg, config) == Ok(r.value[k])
    ensures r.Err? ==> exists k :: k in Whitelist(KindOf(commandType)) && Applies(RuleOf(k), k, msg, config)
                                   && FieldValue(cx, RuleOf(k), k, msg, config) == Err(r.error)
    ensures r.Err? ==> r.error.InvalidJson?
    ensures r.Ok? <==> forall k :: k in Whitelist(KindOf(commandType)) && Applies(RuleOf(k), k, msg, config) ==>
                                   FieldValue(cx, RuleOf(k), k, msg, config).Ok?
  {
    TableMatchesWhitelist(KindOf(commandType));
    AddFields(cx, FieldTable(KindOf(commandType)), msg, config, map[])
  }

  /** `if (msg.params) params = {...params, ...msg.params}`. */
  function WithMessageParams(built: Fields, extra: Value): (r: Fields)
    ensures !Truthy(extra) ==> r == built
    ensures Truthy(extra) ==> r.Keys == built.Keys + Spread(extra).Keys
    ensures Truthy(extra) ==> forall k :: k in Spread(extra) ==> r[k] == Spread(extra)[k]
    ensures forall k :: k in built && k !in Spread(extra) ==> r[k] == built[k]
  {
    if Truthy(extra) then SpreadOver(built, extra) else built
  }

  /**
   * The command data: the type is `msg.commandType || config.commandType` and
   * must be truthy; the parameters are the switch's, overlaid by `msg.params`.
   */
  function BuildCommand(cx: Coercions, msg: Fields, config: Fields): (r: Result<CommandData, Error>)
    ensures r == Err(CommandTypeRequired) <==>
              !Truthy(Field(msg, "commandType")) && !Truthy(Field(config, "commandType"))
    ensures r.Ok? ==> r.value.commandType == Or(Field(msg, "commandType"), Field(config, "commandType"))
    ensures r.Ok? ==> var built := BuildParams(cx, r.value.commandType, msg, config);
                      built.Ok? && r.value.params == WithMessageParams(built.value, Field(msg, "params"))
    ensures r.Err? && r.error != CommandTypeRequired ==>
              BuildParams(cx, Or(Field(msg, "commandType"), Field(config, "commandType")), msg, config) == Err(r.error)
  {
    var commandType := Or(Field(msg, "commandType"), Field(config, "commandType"));
    if !Truthy(commandType) then Err(CommandTypeRequired)
    else
      match BuildParams(cx, commandType, msg, config)
      case Err(e) => Err(e)
      case Ok(built) => Ok(CommandData(commandType, WithMessageParams(built, Field(msg, "params"))))
  }

  /** The request body `{data: commandData}`. */
  function CommandBody(cmd: CommandData): (body: Value)
    ensures Get(Get(body, "data"), "commandType") == cmd.commandType
    ensures Get(Get(body, "data"), "params") == Obj(cmd.params)
  {
    Obj(map["data" := Obj(map["commandType" := cmd.commandType, "params" := Obj(cmd.params)])])
  }

  // ---------------------------------------------------------------------------
  // Properties of the builder.
  // ---------------------------------------------------------------------------

  /** Exactly the recognised command types have fields; every other type builds none. */
  lemma KnownTypesHaveFields(commandType: Value)
    ensures Whitelist(KindOf(commandType)) != {} <==> commandType.Str? && commandType.s in KnownCommandTypes
  {
  }

  /** An unrecognised command type still builds, with no parameters of its own. */
  lemma UnknownTypeBuildsNoParams(cx: Coercions, commandType: Value, msg: Fields, config: Fields)
    requires !(commandType.Str? && commandType.s in KnownCommandTypes)
    ensures BuildParams(cx, commandType, msg, config) == Ok(map[])
  {
    KnownTypesHaveFields(commandType);
    var r := BuildParams(cx, commandType, msg, config);
    if r.Ok? {
      assert r.value.Keys == {};
    }
  }

  /**
   * A `||`-merged field is stored exactly when the message or the configuration
   * holds a truthy value; a truthy message value wins, otherwise the
   * configuration's, and the merged value then goes through the field's coercion.
   */
  lemma TruthyFieldPrecedence(cx: Coercions, commandType: Value, msg: Fields, config: Fields, k: string)
    requires BuildParams(cx, commandType, msg, config).Ok?
    requires k in Whitelist(KindOf(commandType)) && k != "forceDirect"
    ensures var p := BuildParams(cx, commandType, msg, config).value;
            && (k in p <==> Truthy(Field(msg, k)) || Truthy(Field(config, k)))
            && (Truthy(Field(msg, k)) ==> Coerce(cx, CoercionOf(k), Field(msg, k)) == Ok(p[k]))
            && (!Truthy(Field(msg, k)) && Truthy(Field(config, k)) ==>
                  Coerce(cx, CoercionOf(k), Field(config, k)) == Ok(p[k]))
            && (CoercionOf(k) == AsIs && k in p ==> p[k] == Or(Field(msg, k), Field(config, k)))
  {
  }

  /**
   * `forceDirect` is stored whenever either side is not undefined, and the
   * message value is kept even when it is falsy, an explicit false included.
   */
  lemma ForceDirectPrecedence(cx: Coercions, msg: Fields, config: Fields)
    requires BuildParams(cx, Str("moveToWell"), msg, config).Ok?
    ensures var p := BuildParams(cx, Str("moveToWell"), msg, config).value;
            && ("forceDirect" in p <==> Field(msg, "forceDirect") != Undef || Field(config, "forceDirect") != Undef)
            && (Field(msg, "forceDirect") != Undef ==> p["forceDirect"] == Field(msg, "forceDirect"))
            && (Field(msg, "forceDirect") == Undef && Field(config, "forceDirect") != Undef ==>
                  p["forceDirect"] == Field(config, "forceDirect"))
  {
    assert "forceDirect" in Whitelist(MoveToWell);
  }

  /** The `home` case is selected by the string "home" and nothing else. */
  lemma HomeKind(commandType: Value)
    ensures KindOf(commandType) == Home <==> commandType == Str("home")
  {
  }

  lemma AxesKind(kind: CommandKind)
    ensures "axes" in Whitelist(kind) <==> kind == Home
  {
    assert "axes" !in WellTarget;
  }

  /** `axes` belongs to the home command alone. */
  lemma AxesOnlyInHome(commandType: Value)
    ensures "axes" in Whitelist(KindOf(commandType)) <==> commandType == Str("home")
  {
    HomeKind(commandType);
    AxesKind(KindOf(commandType));
  }

  /** A field whose merge throws can only be `axes`: the one field coerced through JSON.parse. */
  lemma FailingFieldIsAxes(cx: Coercions, k: string, msg: Fields, config: Fields)
    requires FieldValue(cx, RuleOf(k), k, msg, config).Err?
    ensures k == "axes"
  {
    assert RuleOf(k) == TruthyMerge(JsonIfString);
  }

  /** A failed build failed on the home command's `axes`. */
  lemma FailureIsAxes(cx: Coercions, commandType: Value, msg: Fields, config: Fields)
    requires BuildParams(cx, commandType, msg, config).Err?
    ensures "axes" in Whitelist(KindOf(commandType))
    ensures Applies(RuleOf("axes"), "axes", msg, config)
    ensures FieldValue(cx, RuleOf("axes"), "axes", msg, config).Err?
  {
    var r := BuildParams(cx, commandType, msg, config);
    var k :| k in Whitelist(KindOf(commandType)) && Applies(RuleOf(k), k, msg, config)
             && FieldValue(cx, RuleOf(k), k, msg, config) == Err(r.error);
    FailingFieldIsAxes(cx, k, msg, config);
  }

  /** An `axes` string that JSON.parse rejects fails the home command's build. */
  lemma AxesFailureFails(cx: Coercions, commandType: Value, msg: Fields, config: Fields)
    requires "axes" in Whitelist(KindOf(commandType))
    requires Applies(RuleOf("axes"), "axes", msg, config)
    requires FieldValue(cx, RuleOf("axes"), "axes", msg, config).Err?
    ensures BuildParams(cx, commandType, msg, config).Err?
  {
  }

  /** The `axes` line runs and throws exactly when the merged value is a string JSON.parse rejects. */
  lemma AxesLineThrows(cx: Coercions, msg: Fields, config: Fields)
    ensures Applies(RuleOf("axes"), "axes", msg, config) && FieldValue(cx, RuleOf("axes"), "axes", msg, config).Err? <==>
              && (Truthy(Field(msg, "axes")) || Truthy(Field(config, "axes")))
              && var axes := Or(Field(msg, "axes"), Field(config, "axes"));
                 axes.Str? && cx.parseJson(axes.s).None?
  {
    assert RuleOf("axes") == TruthyMerge(JsonIfString);
  }

  /** Only `axes`, through JSON.parse, can make the builder fail, and only on a string that does not parse. */
  lemma OnlyAxesCanFail(cx: Coercions, commandType: Value, msg: Fields, config: Fields)
    ensures BuildParams(cx, commandType, msg, config).Err? <==>
              && commandType == Str("home")
              && (Truthy(Field(msg, "axes")) || Truthy(Field(config, "axes")))
              && var axes := Or(Field(msg, "axes"), Field(config, "axes"));
                 axes.Str? && cx.parseJson(axes.s).None?
  {
    AxesOnlyInHome(commandType);
    AxesLineThrows(cx, msg, config);
    if BuildParams(cx, commandType, msg, config).Err? {
      FailureIsAxes(cx, commandType, msg, config);
    } else if "axes" in Whitelist(KindOf(commandType)) && Applies(RuleOf("axes"), "axes", msg, config)
              && FieldValue(cx, RuleOf("axes"), "axes", msg, config).Err? {
      AxesFailureFails(cx, commandType, msg, config);
    }
  }

  /** Without `msg.params`, the posted parameters are confined to the command type's whitelist. */
  lemma ParamsWithinWhitelist(cx: Coercions, msg: Fields, config: Fields)
    requires !Truthy(Field(msg, "params"))
    requires BuildCommand(cx, msg, config).Ok?
    ensures var cmd := BuildCommand(cx, msg, config).value;
            cmd.params.Keys <= Whitelist(KindOf(cmd.commandType))
  {
  }

  /**
   * `msg.params` is merged last: each of its properties overrides the built
   * value and may lie outside the whitelist; every other built field is kept.
   */
  lemma MessageParamsOverride(cx: Coercions, msg: Fields, config: Fields)
    requires BuildCommand(cx, msg, config).Ok?
    requires Field(msg, "params").Obj?
    ensures var cmd := BuildCommand(cx, msg, config).value;
            var extra := Field(msg, "params").fields;
            var built := BuildParams(cx, cmd.commandType, msg, config).value;
            && cmd.params.Keys == built.Keys + extra.Keys
            && (forall k :: k in extra ==> cmd.params[k] == extra[k])
            && (forall k :: k in built && k !in extra ==> cmd.params[k] == built[k])
  {
    var cmd := BuildCommand(cx, msg, config).value;
    var extra := Field(msg, "params");
    var built := BuildParams(cx, cmd.commandType, msg, config).value;
    assert Truthy(extra) && Spread(extra) == extra.fields;
    assert cmd.params == WithMessageParams(built, extra);
  }
}

=== FILE: js.dfy ===
/**
 * The slice of JavaScript value semantics the adapters rely on: truthiness,
 * `||`, property reads, strict equality and object spread.
 */
module Js {
  import opened Wrappers

  /** A JavaScript value. `Obj` holds the object's own enumerable properties. */
  datatype Value =
    | Undef
    | Null
    | Bool(b: bool)
    | Num(n: real)
    | NaN
    | Str(s: string)
    | Arr(items: seq<Value>)
    | Obj(fields: map<string, Value>)

  /** A message or a node configuration: an object seen as its property map. */
  type Fields = map<string, Value>

  /** ToBoolean: the falsy values are undefined, null, false, 0, NaN and "". */
  predicate Truthy(v: Value)
  {
    match v
    case Undef => false
    case Null => false
    case Bool(b) => b
    case Num(n) => n != 0.0
    case NaN => false
    case Str(s) => s != ""
    case Arr(_) => true
    case Obj(_) => true
  }

  /** `a || b`: the left operand when it is truthy, otherwise the right one. */
  function Or(a: Value, b: Value): (r: Value)
    ensures Truthy(r) <==> Truthy(a) || Truthy(b)
    ensures r == a || r == b
  {
    if Truthy(a) then a else b
  }

  /** `m.k` on a message or configuration; a missing property reads as undefined. */
  function Field(m: Fields, k: string): Value
  {
    if k in m then m[k] else Undef
  }

  /**
   * `o?.k`: undefined unless `o` is an object holding `k`. The keys read here
   * (`runId`, `on`, `id`, ...) are not properties that strings, numbers or
   * arrays inherit, so every non-object reads as undefined.
   */
  function Get(o: Value, k: string): Value
  {
    if o.Obj? then Field(o.fields, k) else Undef
  }

  /**
   * `a === b`. Primitives compare by value and NaN equals nothing. Object
   * identity is not modelled: two objects or arrays are never taken as identical.
   */
  predicate StrictEq(a: Value, b: Value)
  {
    match a
    case Undef => b.Undef?
    case Null => b.Null?
    case Bool(x) => b.Bool? && b.b == x
    case Num(x) => b.Num? && b.n == x
    case NaN => false
    case Str(x) => b.Str? && b.s == x
    case Arr(_) => false
    case Obj(_) => false
  }

  /** Values for which `x === x` holds: every value except NaN, objects and arrays. */
  predicate SelfIdentical(v: Value)
  {
    !(v.NaN? || v.Arr? || v.Obj?)
  }

  lemma StrictEqReflexive(v: Value)
    requires SelfIdentical(v)
    ensures StrictEq(v, v)
  {
  }

  /**
   * The first truthy value of a priority list: what a chain `a || b || ...`
   * settles on whenever it settles on a truthy value.
   */
  function FirstTruthy(vs: seq<Value>): (r: Option<Value>)
    ensures r.Some? ==> Truthy(r.value) && r.value in vs
    ensures r.None? <==> forall i :: 0 <= i < |vs| ==> !Truthy(vs[i])
  {
    if vs == [] then None
    else if Truthy(vs[0]) then Some(vs[0])
    else FirstTruthy(vs[1..])
  }

  /** Splitting a priority list: the first part decides whenever it holds a truthy value. */
  lemma {:induction false} FirstTruthyAppend(a: seq<Value>, b: seq<Value>)
    ensures FirstTruthy(a + b) == if FirstTruthy(a).Some? then FirstTruthy(a) else FirstTruthy(b)
    decreases |a|
  {
    if a == [] {
      assert a + b == b;
    } else {
      assert (a + b)[1..] == a[1..] + b;
      FirstTruthyAppend(a[1..], b);
    }
  }

  /** The decimal spelling of an array index, as used for property keys. */
  function DecimalString(n: nat): (r: string)
    ensures |r| >= 1
    ensures forall i :: 0 <= i < |r| ==> '0' <= r[i] <= '9'
  {
    var digit := ['0' + (n % 10) as char];
    if n < 10 then digit else DecimalString(n / 10) + digit
  }

  /** The own properties of an array-like: index keys "0", "1", ... bound to its elements. */
  function Indexed(items: seq<Value>): Fields
  {
    if items == [] then map[]
    else Indexed(items[..|items| - 1])[DecimalString(|items| - 1) := items[|items| - 1]]
  }

  /** The characters of a string, each as a one-character string. */
  function Chars(s: string): (r: seq<Value>)
    ensures |r| == |s|
    ensures forall i :: 0 <= i < |s| ==> r[i] == Str([s[i]])
  {
    seq(|s|, i requires 0 <= i < |s| => Str([s[i]]))
  }

  /** Distinct indices have distinct decimal spellings, so index keys never collide. */
  lemma {:induction false} DecimalStringInjective(a: nat, b: nat)
    ensures DecimalString(a) == DecimalString(b) ==> a == b
    decreases a
  {
    var da, db := DecimalString(a), DecimalString(b);
    if da == db {
      assert da[|da| - 1] == db[|db| - 1];
      assert a % 10 == b % 10;
      if a >= 10 && b >= 10 {
        assert DecimalString(a / 10) == da[..|da| - 1] == db[..|db| - 1] == DecimalString(b / 10);
        DecimalStringInjective(a / 10, b / 10);
      }
    }
  }

  /** Each element of an array-like is bound to its index key. */
  lemma {:induction false} IndexedHasElements(items: seq<Value>)
    ensures forall i :: 0 <= i < |items| ==> DecimalString(i) in Indexed(items) && Indexed(items)[DecimalString(i)] == items[i]
    decreases |items|
  {
    if items != [] {
      var n := |items| - 1;
      var m := Indexed(items[..n]);
      IndexedHasElements(items[..n]);
      assert Indexed(items) == m[DecimalString(n) := items[n]];
      forall i | 0 <= i < |items|
        ensures DecimalString(i) in Indexed(items) && Indexed(items)[DecimalString(i)] == items[i]
      {
        if i < n {
          DecimalStringInjective(i, n);
          assert items[..n][i] == items[i];
        }
      }
    }
  }

  /** `k` spells one of the indices below `n`. */
  predicate IsIndexKey(k: string, n: nat)
  {
    exists i :: 0 <= i < n && k == DecimalString(i)
  }

  /** An array-like has no property besides its index keys. */
  lemma {:induction false} IndexedOnlyIndices(items: seq<Value>)
    ensures forall k :: k in Indexed(items) ==> IsIndexKey(k, |items|)
    decreases |items|
  {
    if items != [] {
      var n := |items| - 1;
      var m := Indexed(items[..n]);
      IndexedOnlyIndices(items[..n]);
      assert Indexed(items) == m[DecimalString(n) := items[n]];
      forall k | k in Indexed(items)
        ensures IsIndexKey(k, |items|)
      {
        if k == DecimalString(n) {
          assert 0 <= n < |items|;
        } else {
          assert IsIndexKey(k, n);
          var i :| 0 <= i < n && k == DecimalString(i);
          assert 0 <= i < |items|;
        }
      }
    }
  }

  /**
   * The properties `{...v}` contributes to an object literal: an object's own
   * properties, the indexed elements of an array or string, nothing otherwise.
   */
  function Spread(v: Value): Fields
  {
    match v
    case Obj(fields) => fields
    case Arr(items) => Indexed(items)
    case Str(s) => Indexed(Chars(s))
    case _ => map[]
  }

  /** Spreading an array gives one property per element, keyed by its index. */
  lemma SpreadArray(items: seq<Value>)
    ensures forall i :: 0 <= i < |items| ==> DecimalString(i) in Spread(Arr(items)) && Spread(Arr(items))[DecimalString(i)] == items[i]
    ensures forall k :: k in Spread(Arr(items)) ==> IsIndexKey(k, |items|)
  {
    IndexedHasElements(items);
    IndexedOnlyIndices(items);
  }

  /** Spreading a string gives one property per character, keyed by its index, holding that character. */
  lemma SpreadString(s: string)
    ensures forall i :: 0 <= i < |s| ==> DecimalString(i) in Spread(Str(s)) && Spread(Str(s))[DecimalString(i)] == Str([s[i]])
    ensures forall k :: k in Spread(Str(s)) ==> IsIndexKey(k, |s|)
  {
    IndexedHasElements(Chars(s));
    IndexedOnlyIndices(Chars(s));
  }

  /** `{...base, ...v}`: the spread properties of `v` win over those of `base`. */
  function SpreadOver(base: Fields, v: Value): (r: Fields)
    ensures r.Keys == base.Keys + Spread(v).Keys
    ensures forall k :: k in Spread(v) ==> r[k] == Spread(v)[k]
    ensures forall k :: k in base && k !in Spread(v) ==> r[k] == base[k]
  {
    base + Spread(v)
  }
}

=== FILE: lights.dfy ===
/** The lights node: switches the robot's rail lights on or off. */
module Lights {
  import opened Js
  import opened Wrappers
  import opened Adapter

  /** `typeof v === 'object'`. */
  predicate IsObjectType(v: Value)
  {
    v.Obj? || v.Arr? || v.Null?
  }

  /**
   * `config.lightsOn`, overridden by a boolean payload, or by the `on` field of
   * an object payload when that field is defined. A null payload is excluded:
   * the node dereferences it outside its error handling.
   */
  function LightsOn(config: Fields, msg: Fields): Value
    requires Field(msg, "payload") != Null
  {
    var payload := Field(msg, "payload");
    if payload != Undef && payload.Bool? then payload
    else if payload != Undef && IsObjectType(payload) && Get(payload, "on") != Undef then Get(payload, "on")
    else Field(config, "lightsOn")
  }

  /** Every payload shape and the state it selects. */
  lemma LightsOnCases(config: Fields, msg: Fields)
    requires Field(msg, "payload") != Null
    ensures var payload := Field(msg, "payload");
            var on := LightsOn(config, msg);
            && (payload.Bool? ==> on == payload)
            && (payload.Obj? && "on" in payload.fields && payload.fields["on"] != Undef ==> on == payload.fields["on"])
            && (payload.Obj? && ("on" !in payload.fields || payload.fields["on"] == Undef) ==> on == Field(config, "lightsOn"))
            && (payload.Undef? || payload.Str? || payload.Num? || payload.NaN? || payload.Arr? ==>
                  on == Field(config, "lightsOn"))
  {
  }

  /** `POST /robot/lights` with body `{on: lightsOn}`. */
  function Decide(server: Option<Server>, config: Fields, msg: Fields): (r: Result<Request, Error>)
    requires server.Some? ==> Field(msg, "payload") != Null
    ensures server.None? <==> r == Err(NoServer)
    ensures r.Ok? ==>
              && server.Some?
              && r.value.endpoint == EndpointOf(server.value) && r.value.headers == Headers(server.value.token)
    ensures r.Ok? ==>
              && r.value.verb == POST && r.value.path == Fixed("/robot/lights")
              && r.value.body.Some? && r.value.body.value.Obj?
              && r.value.body.value.fields.Keys == {"on"}
              && Get(r.value.body.value, "on") == LightsOn(config, msg)
  {
    if server.None? then Err(NoServer)
    else Ok(Call(server.value, POST, Fixed("/robot/lights"), Some(Obj(map["on" := LightsOn(config, msg)]))))
  }

  /** The status shown after a successful call. */
  function StatusText(lightsOn: Value): (t: string)
    ensures t == "on" <==> Truthy(lightsOn)
    ensures t == "off" <==> !Truthy(lightsOn)
  {
    if Truthy(lightsOn) then "on" else "off"
  }

  /** What handling one event produced, with the status text shown on success. */
  datatype LightsStep = LightsStep(outcome: Outcome, status: Option<string>)

  function Handle(server: Option<Server>, config: Fields, msg: Fields, reply: Reply): (s: LightsStep)
    requires server.Some? ==> Field(msg, "payload") != Null
    ensures server.None? ==> s == LightsStep(Outcome(None, Err(NoServer)), None)
    ensures var d := Decide(server, config, msg);
            && s.outcome.sent == (if d.Ok? then Some(d.value) else None)
            && (d.Err? ==> s.outcome.result == Err(d.error))
    ensures s.outcome.sent.None? <==> server.None?
    ensures s.outcome.result.Ok? <==> server.Some? && reply.HttpOk?
    ensures s.outcome.result.Ok? ==> s.outcome.result.value == msg["payload" := reply.data]
    ensures s.status.Some? <==> s.outcome.result.Ok?
    ensures s.status.Some? ==> (s.status.value == "on" <==> Truthy(LightsOn(config, msg)))
  {
    var o := Deliver(Decide(server, config, msg), msg, reply);
    LightsStep(o, if o.result.Ok? then Some(StatusText(LightsOn(config, msg))) else None)
  }
}

=== FILE: maintenance_command.dfy ===
/**
 * The maintenance command node: resolves a maintenance-run ID through its
 * fallback chain, then posts the same command the run command node would
 * build to `/maintenance_runs/{id}/commands`.
 */
module MaintenanceCommand {
  import opened Js
  import opened Wrappers
  import opened Adapter
  import opened CommandParams
  import opened Registry
  import Run
  import RunCommand

  /** A maintenance-run node on `server` holding a truthy ID: where the sibling scan stops. */
  predicate IsRunSibling(n: NodeRecord, server: Value)
  {
    n.kind == RunNodeType && StrictEq(n.server, server) && Truthy(n.maintenanceRunId)
  }

  /** The position of the first node the sibling scan stops at, if any. */
  function FirstRunSibling(flow: Flow, server: Value): (r: Option<nat>)
    ensures r.Some? ==>
              && r.value < |flow| && IsRunSibling(flow[r.value], server)
              && forall j :: 0 <= j < r.value ==> !IsRunSibling(flow[j], server)
    ensures r.None? ==> forall j :: 0 <= j < |flow| ==> !IsRunSibling(flow[j], server)
    decreases |flow|
  {
    if flow == [] then None
    else if IsRunSibling(flow[0], server) then Some(0)
    else
      match FirstRunSibling(flow[1..], server)
      case None => None
      case Some(j) => Some(j + 1)
  }

  /**
   * The ID chain. With `autoUseLatest`: the node's stored ID, the configured
   * ID, then the first sibling's. Without it: the configured ID only. Either
   * way `msg.maintenanceRunId` and then `msg.payload.maintenanceRunId` come last.
   */
  function ResolveRunId(config: Fields, stored: Value, flow: Flow, msg: Fields): (id: Value)
    ensures Truthy(Field(config, "autoUseLatest")) && Truthy(stored) ==> id == stored
    ensures Truthy(Field(config, "autoUseLatest")) && !Truthy(stored) && Truthy(Field(config, "maintenanceRunId")) ==>
              id == Field(config, "maintenanceRunId")
    ensures Truthy(Field(config, "autoUseLatest")) && !Truthy(stored) && !Truthy(Field(config, "maintenanceRunId"))
            && ScanId(flow, Field(config, "server")).Some? ==>
              id == ScanId(flow, Field(config, "server")).value
    ensures !Truthy(Field(config, "autoUseLatest")) && Truthy(Field(config, "maintenanceRunId")) ==>
              id == Field(config, "maintenanceRunId")
    ensures Truthy(Field(msg, "maintenanceRunId")) || Truthy(Get(Field(msg, "payload"), "maintenanceRunId")) ==> Truthy(id)
  {
    var chosen :=
      if Truthy(Field(config, "autoUseLatest")) then
        var own := Or(stored, Field(config, "maintenanceRunId"));
        if Truthy(own) then own
        else
          match FirstRunSibling(flow, Field(config, "server"))
          case Some(j) => flow[j].maintenanceRunId
          case None => own
      else
        Field(config, "maintenanceRunId");
    if Truthy(chosen) then chosen
    else Or(Field(msg, "maintenanceRunId"), Get(Field(msg, "payload"), "maintenanceRunId"))
  }

  // ---------------------------------------------------------------------------
  // The chain as a priority list: the reference the resolver is checked against.
  // ---------------------------------------------------------------------------

  /** The stored IDs of the maintenance-run nodes on `server`, in enumeration order. */
  function SiblingIds(flow: Flow, server: Value): seq<Value>
  {
    if flow == [] then []
    else
      (if flow[0].kind == RunNodeType && StrictEq(flow[0].server, server) then [flow[0].maintenanceRunId] else [])
      + SiblingIds(flow[1..], server)
  }

  /** Every place the node may take its ID from, highest priority first. */
  function Candidates(config: Fields, stored: Value, flow: Flow, msg: Fields): seq<Value>
  {
    var fromMessage := [Field(msg, "maintenanceRunId"), Get(Field(msg, "payload"), "maintenanceRunId")];
    if Truthy(Field(config, "autoUseLatest")) then
      [stored, Field(config, "maintenanceRunId")] + SiblingIds(flow, Field(config, "server")) + fromMessage
    else
      [Field(config, "maintenanceRunId")] + fromMessage
  }

  /** The ID the sibling scan lands on, if it lands anywhere. */
  function ScanId(flow: Flow, server: Value): Option<Value>
  {
    match FirstRunSibling(flow, server)
    case Some(j) => Some(flow[j].maintenanceRunId)
    case None => None
  }

  /** One step of the scan: stop at the first node or move on to the rest. */
  lemma ScanStep(flow: Flow, server: Value)
    requires flow != []
    ensures ScanId(flow, server)
            == if IsRunSibling(flow[0], server) then Some(flow[0].maintenanceRunId) else ScanId(flow[1..], server)
  {
    if !IsRunSibling(flow[0], server) {
      match FirstRunSibling(flow[1..], server)
      case None =>
      case Some(j) => assert flow[1..][j] == flow[j + 1];
    }
  }

  /** One step of the priority list: the first node's ID if it is a truthy sibling, else the rest. */
  lemma SiblingStep(flow: Flow, server: Value)
    requires flow != []
    ensures FirstTruthy(SiblingIds(flow, server))
            == if IsRunSibling(flow[0], server) then Some(flow[0].maintenanceRunId)
               else FirstTruthy(SiblingIds(flow[1..], server))
  {
    var same := flow[0].kind == RunNodeType && StrictEq(flow[0].server, server);
    var head := if same then [flow[0].maintenanceRunId] else [];
    var rest := SiblingIds(flow[1..], server);
    assert SiblingIds(flow, server) == head + rest;
    FirstTruthyAppend(head, rest);
  }

  /** The scan's first match is the first truthy ID among the same-server maintenance-run nodes. */
  lemma {:induction false} ScanIsFirstTruthySibling(flow: Flow, server: Value)
    ensures FirstTruthy(SiblingIds(flow, server)) == ScanId(flow, server)
    decreases |flow|
  {
    if flow != [] {
      ScanStep(flow, server);
      SiblingStep(flow, server);
      ScanIsFirstTruthySibling(flow[1..], server);
    }
  }

  /**
   * The resolver picks the first truthy candidate of the priority list, and
   * finds nothing exactly when no candidate is truthy.
   */
  lemma ResolveIsFirstCandidate(config: Fields, stored: Value, flow: Flow, msg: Fields)
    ensures var id := ResolveRunId(config, stored, flow, msg);
            var first := FirstTruthy(Candidates(config, stored, flow, msg));
            && (Truthy(id) <==> first.Some?)
            && (Truthy(id) ==> id == first.value)
  {
    var server := Field(config, "server");
    var fromMessage := [Field(msg, "maintenanceRunId"), Get(Field(msg, "payload"), "maintenanceRunId")];
    var own := [stored, Field(config, "maintenanceRunId")];
    if Truthy(Field(config, "autoUseLatest")) {
      ScanIsFirstTruthySibling(flow, server);
      FirstTruthyAppend(own, SiblingIds(flow, server));
      FirstTruthyAppend(own + SiblingIds(flow, server), fromMessage);
    } else {
      FirstTruthyAppend([Field(config, "maintenanceRunId")], fromMessage);
    }
  }

  /** Without `autoUseLatest`, neither the stored ID nor any sibling's is consulted. */
  lemma ManualModeIgnoresCache(config: Fields, stored: Value, stored': Value, flow: Flow, flow': Flow, msg: Fields)
    requires !Truthy(Field(config, "autoUseLatest"))
    ensures ResolveRunId(config, stored, flow, msg) == ResolveRunId(config, stored', flow', msg)
  {
  }

  /**
   * The decision step: the server, then the maintenance-run ID, then the
   * command type and parameters, before `POST /maintenance_runs/{id}/commands`.
   */
  function Decide(cx: Coercions, server: Option<Server>, config: Fields, stored: Value, flow: Flow, msg: Fields): (r: Result<Request, Error>)
    ensures server.None? ==> r == Err(NoServer)
    ensures r.Ok? ==>
              && server.Some?
              && r.value.endpoint == EndpointOf(server.value) && r.value.headers == Headers(server.value.token)
    ensures server.Some? && FirstTruthy(Candidates(config, stored, flow, msg)).None? ==> r == Err(MaintenanceRunIdRequired)
    ensures server.Some? && FirstTruthy(Candidates(config, stored, flow, msg)).Some? ==>
              (r.Err? <==> BuildCommand(cx, msg, config).Err?)
              && (r.Err? ==> r.error == BuildCommand(cx, msg, config).error)
    ensures r.Ok? ==>
              && BuildCommand(cx, msg, config).Ok?
              && r.value.verb == POST
              && r.value.path == WithId("/maintenance_runs/", FirstTruthy(Candidates(config, stored, flow, msg)).value, "/commands")
              && r.value.body == Some(CommandBody(BuildCommand(cx, msg, config).value))
  {
    ResolveIsFirstCandidate(config, stored, flow, msg);
    if server.None? then Err(NoServer)
    else
      var id := ResolveRunId(config, stored, flow, msg);
      if !Truthy(id) then Err(MaintenanceRunIdRequired)
      else
        match BuildCommand(cx, msg, config)
        case Err(e) => Err(e)
        case Ok(cmd) => Ok(Call(server.value, POST, WithId("/maintenance_runs/", id, "/commands"), Some(CommandBody(cmd))))
  }

  /** Handling one input event: decide, make the one call, pass the response on. */
  function Handle(cx: Coercions, server: Option<Server>, config: Fields, stored: Value, flow: Flow, msg: Fields, reply: Reply): (o: Outcome)
    ensures var d := Decide(cx, server, config, stored, flow, msg);
            && o.sent == (if d.Ok? then Some(d.value) else None)
            && (d.Err? ==> o.result == Err(d.error))
    ensures o.sent.None? <==> o.result.Err? && IsValidationError(o.result.error)
    ensures o.result.Ok? <==> o.sent.Some? && reply.HttpOk?
    ensures o.result.Ok? ==> o.result.value == msg["payload" := reply.data]
  {
    Deliver(Decide(cx, server, config, stored, flow, msg), msg, reply)
  }

  /** The ID check precedes the command-type check. */
  lemma IdCheckedBeforeCommandType(cx: Coercions, server: Server, config: Fields, stored: Value, flow: Flow, msg: Fields, reply: Reply)
    requires FirstTruthy(Candidates(config, stored, flow, msg)).None?
    ensures Handle(cx, Some(server), config, stored, flow, msg, reply) == Outcome(None, Err(MaintenanceRunIdRequired))
  {
  }

  /**
   * Given the same message and configuration, the maintenance command node
   * posts exactly the body the run command node posts, and fails for the same
   * builder errors.
   */
  lemma SameBodyAsRunCommand(cx: Coercions, server: Server, config: Fields, stored: Value, flow: Flow, msg: Fields)
    requires Truthy(Run.RunIdOf(msg))
    requires FirstTruthy(Candidates(config, stored, flow, msg)).Some?
    ensures var m := Decide(cx, Some(server), config, stored, flow, msg);
            var c := RunCommand.Decide(cx, Some(server), msg, config);
            && (m.Ok? <==> c.Ok?)
            && (m.Ok? ==> m.value.body == c.value.body && m.value.headers == c.value.headers)
            && (m.Err? ==> m.error == c.error)
  {
    var m := Decide(cx, Some(server), config, stored, flow, msg);
    var c := RunCommand.Decide(cx, Some(server), msg, config);
    match BuildCommand(cx, msg, config)
    case Err(e) =>
      assert m == Err(e) && c == Err(e);
    case Ok(cmd) =>
      assert m.Ok? && m.value.body == Some(CommandBody(cmd));
      assert c.Ok? && c.value.body == Some(CommandBody(cmd));
  }
}

=== FILE: maintenance_run.dfy ===
/**
 * The maintenance-run node: creates, fetches, deletes or reports the current
 * maintenance run, and with `autoStore` keeps the ID cache of the nodes on
 * its server up to date.
 */
module MaintenanceRun {
  import opened Js
  import opened Wrappers
  import opened Adapter
  import opened Registry
  import MaintenanceCommand

  /** The actions the node dispatches on. */
  const Actions: set<string> := {"create", "get", "delete", "current"}

  /** The body of a create request: `{data: {}}`. */
  const CreateBody: Value := Obj(map["data" := Obj(map[])])

  /** The ID get and delete act on: the configured ID first, then the message's, then the payload's. */
  function TargetId(config: Fields, msg: Fields): (id: Value)
    ensures Truthy(Field(config, "maintenanceRunId")) ==> id == Field(config, "maintenanceRunId")
    ensures !Truthy(Field(config, "maintenanceRunId")) && Truthy(Field(msg, "maintenanceRunId")) ==>
              id == Field(msg, "maintenanceRunId")
    ensures !Truthy(Field(config, "maintenanceRunId")) && !Truthy(Field(msg, "maintenanceRunId")) ==>
              id == Get(Field(msg, "payload"), "maintenanceRunId")
    ensures Truthy(id) <==> Truthy(Field(config, "maintenanceRunId")) || Truthy(Field(msg, "maintenanceRunId"))
                            || Truthy(Get(Field(msg, "payload"), "maintenanceRunId"))
    ensures Truthy(id) ==>
              FirstTruthy([Field(config, "maintenanceRunId"), Field(msg, "maintenanceRunId"),
                           Get(Field(msg, "payload"), "maintenanceRunId")]) == Some(id)
  {
    var chain := [Field(config, "maintenanceRunId"), Field(msg, "maintenanceRunId"), Get(Field(msg, "payload"), "maintenanceRunId")];
    assert chain[1..][1..] == [chain[2]];
    Or(Or(chain[0], chain[1]), chain[2])
  }

  /** The action switch: the request each action issues, or why none is issued. */
  function Decide(server: Server, action: Value, config: Fields, msg: Fields): (r: Result<Request, Error>)
    ensures r.Ok? ==> r.value.endpoint == EndpointOf(server) && r.value.headers == Headers(server.token)
    ensures r == Err(UnknownAction(action)) <==> !(action.Str? && action.s in Actions)
    ensures action == Str("get") ==> (r.Err? <==> !Truthy(TargetId(config, msg)))
    ensures action == Str("delete") ==> (r.Err? <==> !Truthy(TargetId(config, msg)))
    ensures (action == Str("get") || action == Str("delete")) && !Truthy(TargetId(config, msg)) ==>
              r == Err(IdRequiredFor("Maintenance Run", action.s))
    ensures action == Str("create") || action == Str("current") ==> r.Ok?
  {
    if action == Str("create") then
      Ok(Call(server, POST, Fixed("/maintenance_runs"), Some(CreateBody)))
    else if action == Str("get") then
      var id := TargetId(config, msg);
      if !Truthy(id) then Err(IdRequiredFor("Maintenance Run", "get"))
      else Ok(Call(server, GET, WithId("/maintenance_runs/", id, ""), None))
    else if action == Str("delete") then
      var id := TargetId(config, msg);
      if !Truthy(id) then Err(IdRequiredFor("Maintenance Run", "delete"))
      else Ok(Call(server, DELETE, WithId("/maintenance_runs/", id, ""), None))
    else if action == Str("current") then
      Ok(Call(server, GET, Fixed("/maintenance_runs/current_run"), None))
    else
      Err(UnknownAction(action))
  }

  /** Reads a request back as the action that issued it: the inverse of the switch. */
  function RequestAction(req: Request): Option<string>
  {
    match (req.verb, req.path)
    case (POST, Fixed("/maintenance_runs")) => Some("create")
    case (GET, Fixed("/maintenance_runs/current_run")) => Some("current")
    case (GET, WithId("/maintenance_runs/", _, "")) => Some("get")
    case (DELETE, WithId("/maintenance_runs/", _, "")) => Some("delete")
    case _ => None
  }

  /** Every request the switch issues reads back as the action that chose it, with its ID in the path. */
  lemma DecideRoundTrip(server: Server, action: Value, config: Fields, msg: Fields)
    requires Decide(server, action, config, msg).Ok?
    ensures var req := Decide(server, action, config, msg).value;
            && action.Str? && RequestAction(req) == Some(action.s)
            && (req.path.WithId? ==> req.path.id == TargetId(config, msg) && Truthy(req.path.id))
            && (action == Str("create") ==> req.body == Some(CreateBody))
            && (action != Str("create") ==> req.body.None?)
  {
  }

  /** The new run's ID, when the response has the `data.data` the node looks for. */
  function CreatedId(data: Value): (r: Option<Value>)
    ensures r.Some? <==> Truthy(data) && Truthy(Get(data, "data"))
    ensures r.Some? ==> r.value == Get(Get(data, "data"), "id")
  {
    if Truthy(data) && Truthy(Get(data, "data")) then Some(Get(Get(data, "data"), "id")) else None
  }

  /** The ID cache after a step, and what the step sent and passed on. */
  datatype Step = Step(flow: Flow, outcome: Outcome)

  /** Handling one input event by the maintenance-run node `selfId`. */
  function Handle(selfId: string, config: Fields, server: Option<Server>, flow: Flow, msg: Fields, reply: Reply): (s: Step)
    ensures server.None? ==> s == Step(flow, Outcome(None, Err(NoServer)))
    ensures server.Some? ==>
              var d := Decide(server.value, ActionOf(msg, config), config, msg);
              && s.outcome.sent == (if d.Ok? then Some(d.value) else None)
              && (d.Err? ==> s.outcome.result == Err(d.error))
    ensures s.outcome.sent.None? <==> s.outcome.result.Err? && IsValidationError(s.outcome.result.error)
    ensures s.outcome.result.Ok? <==> s.outcome.sent.Some? && reply.HttpOk?
    ensures s.outcome.result.Err? ==> s.flow == flow
    ensures !Truthy(Field(config, "autoStore")) ==> s.flow == flow
    ensures s.outcome.result.Ok? ==>
              var out := s.outcome.result.value;
              && "payload" in out && out["payload"] == reply.data
              && (ActionOf(msg, config) == Str("create") && CreatedId(reply.data).Some? ==>
                    out == msg["payload" := reply.data]["maintenanceRunId" := CreatedId(reply.data).value])
              && (!(ActionOf(msg, config) == Str("create") && CreatedId(reply.data).Some?) ==>
                    out == msg["payload" := reply.data])
    ensures s.outcome.result.Ok? && ActionOf(msg, config) == Str("create") ==>
              s.flow == if Truthy(Field(config, "autoStore")) && CreatedId(reply.data).Some?
                        then StoreCreated(flow, selfId, Field(config, "server"), CreatedId(reply.data).value)
                        else flow
    ensures s.outcome.result.Ok? && ActionOf(msg, config) == Str("delete") ==>
              s.flow == if Truthy(Field(config, "autoStore"))
                        then ClearDeleted(flow, selfId, Field(config, "server"), TargetId(config, msg))
                        else flow
    ensures ActionOf(msg, config) != Str("create") && ActionOf(msg, config) != Str("delete") ==> s.flow == flow
  {
    if server.None? then Step(flow, Outcome(None, Err(NoServer)))
    else
      var action := ActionOf(msg, config);
      var delivered := Deliver(Decide(server.value, action, config, msg), msg, reply);
      if delivered.result.Err? then Step(flow, delivered)
      else
        var created := CreatedId(reply.data);
        var autoStore := Truthy(Field(config, "autoStore"));
        var out := delivered.result.value;
        var out' := if action == Str("create") && created.Some? then out["maintenanceRunId" := created.value] else out;
        var flow' :=
          if action == Str("create") && autoStore && created.Some? then
            StoreCreated(flow, selfId, Field(config, "server"), created.value)
          else if action == Str("delete") && autoStore then
            ClearDeleted(flow, selfId, Field(config, "server"), TargetId(config, msg))
          else flow;
        Step(flow', Outcome(delivered.sent, Ok(out')))
  }

  /**
   * `msg.action` wins over the configured action; an unknown action sends
   * nothing, reports `Unknown action` and leaves the cache alone.
   */
  lemma ActionPrecedence(selfId: string, config: Fields, server: Server, flow: Flow, msg: Fields, reply: Reply)
    ensures var s := Handle(selfId, config, Some(server), flow, msg, reply);
            var action := if Truthy(Field(msg, "action")) then Field(msg, "action") else Field(config, "action");
            && (s.outcome.sent.Some? ==> RequestAction(s.outcome.sent.value) == Some(action.s))
            && (!(action.Str? && action.s in Actions) ==> s == Step(flow, Outcome(None, Err(UnknownAction(action)))))
  {
    var action := ActionOf(msg, config);
    if Decide(server, action, config, msg).Ok? {
      DecideRoundTrip(server, action, config, msg);
    }
  }

  /**
   * A created run's ID is published on the message whether or not `autoStore`
   * is on, and only with `autoStore` does it reach the cache.
   */
  lemma CreatePublishesId(selfId: string, config: Fields, server: Server, flow: Flow, msg: Fields, data: Value)
    requires ActionOf(msg, config) == Str("create")
    requires CreatedId(data).Some?
    ensures var s := Handle(selfId, config, Some(server), flow, msg, HttpOk(data));
            && s.outcome.sent == Some(Call(server, POST, Fixed("/maintenance_runs"), Some(CreateBody)))
            && s.outcome.result.Ok?
            && s.outcome.result.value["maintenanceRunId"] == Get(Get(data, "data"), "id")
            && (!Truthy(Field(config, "autoStore")) ==> s.flow == flow)
  {
  }

  /**
   * A successful create with `autoStore` makes the new ID the first choice of
   * every command node on the server that uses the latest run.
   */
  lemma CreatedIdReachesCommandNodes(selfId: string, config: Fields, server: Server, flow: Flow, msg: Fields,
                                     data: Value, i: nat, cmdConfig: Fields, cmdMsg: Fields)
    requires ActionOf(msg, config) == Str("create") && Truthy(Field(config, "autoStore"))
    requires CreatedId(data).Some? && Truthy(CreatedId(data).value)
    requires i < |flow| && ReceivesCreated(flow[i], Field(config, "server"))
    requires Truthy(Field(cmdConfig, "autoUseLatest"))
    ensures var after := Handle(selfId, config, Some(server), flow, msg, HttpOk(data)).flow;
            i < |after|
            && MaintenanceCommand.ResolveRunId(cmdConfig, after[i].maintenanceRunId, after, cmdMsg) == CreatedId(data).value
  {
  }

  /**
   * Round trip through the node itself: create a run with `autoStore`, then
   * delete that run with `autoStore`; every node that received the ID ends up
   * holding "".
   */
  lemma CreateThenDeleteRoundTrip(selfId: string, config: Fields, server: Server, flow: Flow,
                                  createMsg: Fields, created: Value, deleteMsg: Fields, deleted: Value)
    requires Truthy(Field(config, "autoStore"))
    requires ActionOf(createMsg, config) == Str("create") && ActionOf(deleteMsg, config) == Str("delete")
    requires CreatedId(created).Some? && SelfIdentical(CreatedId(created).value) && Truthy(CreatedId(created).value)
    requires TargetId(config, deleteMsg) == CreatedId(created).value
    ensures var s1 := Handle(selfId, config, Some(server), flow, createMsg, HttpOk(created));
            var s2 := Handle(selfId, config, Some(server), s1.flow, deleteMsg, HttpOk(deleted));
            && SameNodes(flow, s2.flow)
            && forall i :: 0 <= i < |flow| && (flow[i].id == selfId || ReceivesCreated(flow[i], Field(config, "server"))) ==>
                 s2.flow[i].maintenanceRunId == Str("")
  {
    var x := CreatedId(created).value;
    CreateThenDeleteClears(flow, selfId, Field(config, "server"), x);
  }
}

=== FILE: protocol.dfy ===
/** The protocol node: list, get, delete and analyze requests. */
module Protocol {
  import opened Js
  import opened Wrappers
  import opened Adapter

  /** The actions the node dispatches on. */
  const Actions: set<string> := {"list", "get", "delete", "analyze"}

  /** `msg.protocolId || msg.payload?.protocolId`: there is no configured fallback. */
  function ProtocolIdOf(msg: Fields): (id: Value)
    ensures Truthy(id) <==> Truthy(Field(msg, "protocolId")) || Truthy(Get(Field(msg, "payload"), "protocolId"))
    ensures Truthy(Field(msg, "protocolId")) ==> id == Field(msg, "protocolId")
    ensures !Truthy(Field(msg, "protocolId")) ==> id == Get(Field(msg, "payload"), "protocolId")
    ensures Truthy(id) ==> FirstTruthy([Field(msg, "protocolId"), Get(Field(msg, "payload"), "protocolId")]) == Some(id)
  {
    Or(Field(msg, "protocolId"), Get(Field(msg, "payload"), "protocolId"))
  }

  /** The action switch: the request each action issues, or why none is issued. */
  function Decide(server: Server, action: Value, msg: Fields): (r: Result<Request, Error>)
    ensures r.Ok? ==> r.value.endpoint == EndpointOf(server) && r.value.headers == Headers(server.token)
    ensures r == Err(UnknownAction(action)) <==> !(action.Str? && action.s in Actions)
    ensures action == Str("list") ==> r.Ok?
    ensures action.Str? && action.s in {"get", "delete", "analyze"} ==>
              (r.Err? <==> !Truthy(ProtocolIdOf(msg)))
              && (r.Err? ==> r.error == IdRequiredFor("Protocol", action.s))
  {
    if action == Str("list") then
      Ok(Call(server, GET, Fixed("/protocols"), None))
    else if action == Str("get") then
      var id := ProtocolIdOf(msg);
      if !Truthy(id) then Err(IdRequiredFor("Protocol", "get"))
      else Ok(Call(server, GET, WithId("/protocols/", id, ""), None))
    else if action == Str("delete") then
      var id := ProtocolIdOf(msg);
      if !Truthy(id) then Err(IdRequiredFor("Protocol", "delete"))
      else Ok(Call(server, DELETE, WithId("/protocols/", id, ""), None))
    else if action == Str("analyze") then
      var id := ProtocolIdOf(msg);
      if !Truthy(id) then Err(IdRequiredFor("Protocol", "analyze"))
      else Ok(Call(server, POST, WithId("/protocols/", id, "/analyses"), Some(Obj(map[]))))
    else
      Err(UnknownAction(action))
  }

  /** Reads a request back as the action that issued it: the inverse of the switch. */
  function RequestAction(req: Request): Option<string>
  {
    match (req.verb, req.path)
    case (GET, Fixed("/protocols")) => Some("list")
    case (GET, WithId("/protocols/", _, "")) => Some("get")
    case (DELETE, WithId("/protocols/", _, "")) => Some("delete")
    case (POST, WithId("/protocols/", _, "/analyses")) => Some("analyze")
    case _ => None
  }

  /**
   * Every request the switch issues reads back as the action that chose it;
   * only analyze carries a body, the empty object.
   */
  lemma DecideRoundTrip(server: Server, action: Value, msg: Fields)
    requires Decide(server, action, msg).Ok?
    ensures var req := Decide(server, action, msg).value;
            && action.Str? && RequestAction(req) == Some(action.s)
            && (req.path.WithId? ==> req.path.id == ProtocolIdOf(msg) && Truthy(req.path.id))
            && (action == Str("analyze") ==> req.body == Some(Obj(map[])))
            && (action != Str("analyze") ==> req.body.None?)
  {
  }

  /** Handling one input event: decide, make the one call, pass the response on. */
  function Handle(server: Option<Server>, config: Fields, msg: Fields, reply: Reply): (o: Outcome)
    ensures server.None? ==> o == Outcome(None, Err(NoServer))
    ensures o.sent.None? <==> o.result.Err? && IsValidationError(o.result.error)
    ensures o.result.Ok? <==> o.sent.Some? && reply.HttpOk?
    ensures o.result.Ok? ==> o.result.value == msg["payload" := reply.data]
    ensures o.sent.Some? ==> ActionOf(msg, config).Str? && RequestAction(o.sent.value) == Some(ActionOf(msg, config).s)
    ensures server.Some? ==>
              var d := Decide(server.value, ActionOf(msg, config), msg);
              && o.sent == (if d.Ok? then Some(d.value) else None)
              && (d.Err? ==> o.result == Err(d.error))
  {
    if server.None? then Outcome(None, Err(NoServer))
    else
      var action := ActionOf(msg, config);
      var decision := Decide(server.value, action, msg);
      if decision.Err? then Deliver(decision, msg, reply)
      else
        DecideRoundTrip(server.value, action, msg);
        Deliver(decision, msg, reply)
  }
}

=== FILE: registry.dfy ===
/**
 * The maintenance-run ID cache: the `maintenanceRunId` each deployed node
 * holds in memory, and the two steps a maintenance-run node applies to it
 * when it creates or deletes a run with `autoStore` on.
 */
module Registry {
  import opened Js

  const RunNodeType: string := "opentrons-maintenance-run"
  const CommandNodeType: string := "opentrons-maintenance-command"

  /** A deployed node: its ID, type, server reference, `autoUseLatest` setting and stored run ID. */
  datatype NodeRecord = NodeRecord(id: string, kind: string, server: Value, autoUseLatest: Value, maintenanceRunId: Value)

  /** The deployed nodes in the order the host enumerates them. */
  type Flow = seq<NodeRecord>

  /** A command node on `server` that has not opted out of auto-use with an explicit false. */
  predicate ReceivesCreated(n: NodeRecord, server: Value)
  {
    n.kind == CommandNodeType && StrictEq(n.server, server) && n.autoUseLatest != Bool(false)
  }

  /** A command node on `server` whose stored ID is the deleted one. */
  predicate ClearedBy(n: NodeRecord, server: Value, deleted: Value)
  {
    n.kind == CommandNodeType && StrictEq(n.server, server) && StrictEq(n.maintenanceRunId, deleted)
  }

  /** The two flows list the same nodes with the same settings; only stored IDs may differ. */
  predicate SameNodes(flow: Flow, flow': Flow)
  {
    && |flow'| == |flow|
    && forall i :: 0 <= i < |flow| ==> flow'[i] == flow[i].(maintenanceRunId := flow'[i].maintenanceRunId)
  }

  /**
   * Create with `autoStore`: the creating node and every eligible command node
   * on the same server store the new ID.
   */
  function StoreCreated(flow: Flow, selfId: string, server: Value, newId: Value): (flow': Flow)
    ensures SameNodes(flow, flow')
    ensures forall i :: 0 <= i < |flow| && (flow[i].id == selfId || ReceivesCreated(flow[i], server)) ==>
              flow'[i].maintenanceRunId == newId
    ensures forall i :: 0 <= i < |flow| && flow[i].id != selfId && !ReceivesCreated(flow[i], server) ==>
              flow'[i] == flow[i]
  {
    seq(|flow|, i requires 0 <= i < |flow| =>
      if flow[i].id == selfId || ReceivesCreated(flow[i], server) then flow[i].(maintenanceRunId := newId)
      else flow[i])
  }

  /**
   * Delete with `autoStore`: the deleting node stores "" and so does every
   * command node on the same server that held the deleted ID.
   */
  function ClearDeleted(flow: Flow, selfId: string, server: Value, deleted: Value): (flow': Flow)
    ensures SameNodes(flow, flow')
    ensures forall i :: 0 <= i < |flow| && (flow[i].id == selfId || ClearedBy(flow[i], server, deleted)) ==>
              flow'[i].maintenanceRunId == Str("")
    ensures forall i :: 0 <= i < |flow| && flow[i].id != selfId && !ClearedBy(flow[i], server, deleted) ==>
              flow'[i] == flow[i]
  {
    seq(|flow|, i requires 0 <= i < |flow| =>
      if flow[i].id == selfId || ClearedBy(flow[i], server, deleted) then flow[i].(maintenanceRunId := Str(""))
      else flow[i])
  }

  /** Storing the same created ID twice is the same as storing it once. */
  lemma StoreCreatedIdempotent(flow: Flow, selfId: string, server: Value, newId: Value)
    ensures StoreCreated(StoreCreated(flow, selfId, server, newId), selfId, server, newId)
            == StoreCreated(flow, selfId, server, newId)
  {
  }

  /** A command node holding another ID, or on another server, keeps its ID through a delete. */
  lemma DeleteKeepsOtherIds(flow: Flow, selfId: string, server: Value, deleted: Value, i: nat)
    requires i < |flow| && flow[i].id != selfId
    requires !StrictEq(flow[i].maintenanceRunId, deleted) || !StrictEq(flow[i].server, server)
    ensures ClearDeleted(flow, selfId, server, deleted)[i] == flow[i]
  {
  }

  /**
   * Round trip: after a create stores `x`, deleting `x` leaves the creating
   * node and every node that received `x` holding "", and every other node as
   * the delete alone would have left it.
   */
  lemma CreateThenDeleteClears(flow: Flow, selfId: string, server: Value, x: Value)
    requires SelfIdentical(x)
    ensures var after := ClearDeleted(StoreCreated(flow, selfId, server, x), selfId, server, x);
            && SameNodes(flow, after)
            && (forall i :: 0 <= i < |flow| && (flow[i].id == selfId || ReceivesCreated(flow[i], server)) ==>
                  after[i].maintenanceRunId == Str(""))
            && (forall i :: 0 <= i < |flow| && flow[i].id != selfId && !ReceivesCreated(flow[i], server) ==>
                  after[i] == ClearDeleted(flow, selfId, server, x)[i])
  {
    var created := StoreCreated(flow, selfId, server, x);
    var after := ClearDeleted(created, selfId, server, x);
    forall i | 0 <= i < |flow| && ReceivesCreated(flow[i], server)
      ensures after[i].maintenanceRunId == Str("")
    {
      StrictEqReflexive(x);
      assert ClearedBy(created[i], server, x);
    }
  }
}

=== FILE: run.dfy ===
/** The run management node: create, get, list, delete and current-run requests. */
module Run {
  import opened Js
  import opened Wrappers
  import opened Adapter

  /** The actions the node dispatches on. */
  const Actions: set<string> := {"create", "get", "list", "delete", "current"}

  /** `msg.runId || msg.payload?.runId`: the run ID comes from the message only. */
  function RunIdOf(msg: Fields): (id: Value)
    ensures Truthy(id) <==> Truthy(Field(msg, "runId")) || Truthy(Get(Field(msg, "payload"), "runId"))
    ensures Truthy(Field(msg, "runId")) ==> id == Field(msg, "runId")
    ensures !Truthy(Field(msg, "runId")) ==> id == Get(Field(msg, "payload"), "runId")
    ensures Truthy(id) ==> FirstTruthy([Field(msg, "runId"), Get(Field(msg, "payload"), "runId")]) == Some(id)
  {
    Or(Field(msg, "runId"), Get(Field(msg, "payload"), "runId"))
  }

  /** The action switch: the request each action issues, or why none is issued. */
  function Decide(server: Server, action: Value, msg: Fields): (r: Result<Request, Error>)
    ensures r.Ok? ==> r.value.endpoint == EndpointOf(server) && r.value.headers == Headers(server.token)
    ensures r == Err(UnknownAction(action)) <==> !(action.Str? && action.s in Actions)
    ensures action == Str("get") || action == Str("delete") ==> (r.Err? <==> !Truthy(RunIdOf(msg)))
    ensures action == Str("get") && !Truthy(RunIdOf(msg)) ==> r == Err(IdRequiredFor("Run", "get"))
    ensures action == Str("delete") && !Truthy(RunIdOf(msg)) ==> r == Err(IdRequiredFor("Run", "delete"))
    ensures action == Str("create") || action == Str("list") || action == Str("current") ==> r.Ok?
  {
    if action == Str("create") then
      Ok(Call(server, POST, Fixed("/runs"), Some(Or(Field(msg, "payload"), Obj(map[])))))
    else if action == Str("get") then
      var id := RunIdOf(msg);
      if !Truthy(id) then Err(IdRequiredFor("Run", "get"))
      else Ok(Call(server, GET, WithId("/runs/", id, ""), None))
    else if action == Str("list") then
      Ok(Call(server, GET, Fixed("/runs"), None))
    else if action == Str("delete") then
      var id := RunIdOf(msg);
      if !Truthy(id) then Err(IdRequiredFor("Run", "delete"))
      else Ok(Call(server, DELETE, WithId("/runs/", id, ""), None))
    else if action == Str("current") then
      Ok(Call(server, GET, Fixed("/runs/current_run"), None))
    else
      Err(UnknownAction(action))
  }

  /** Reads a request back as the action that issued it: the inverse of the switch. */
  function RequestAction(req: Request): Option<string>
  {
    match (req.verb, req.path)
    case (POST, Fixed("/runs")) => Some("create")
    case (GET, Fixed("/runs")) => Some("list")
    case (GET, Fixed("/runs/current_run")) => Some("current")
    case (GET, WithId("/runs/", _, "")) => Some("get")
    case (DELETE, WithId("/runs/", _, "")) => Some("delete")
    case _ => None
  }

  /**
   * Every request the switch issues reads back as the action that chose it;
   * only create carries a body, `msg.payload` or `{}` when that is falsy.
   */
  lemma DecideRoundTrip(server: Server, action: Value, msg: Fields)
    requires Decide(server, action, msg).Ok?
    ensures var req := Decide(server, action, msg).value;
            && action.Str? && RequestAction(req) == Some(action.s)
            && (req.path.WithId? ==> req.path.id == RunIdOf(msg) && Truthy(req.path.id))
            && (action == Str("create") ==>
                  req.body == Some(if Truthy(Field(msg, "payload")) then Field(msg, "payload") else Obj(map[])))
            && (action != Str("create") ==> req.body.None?)
  {
  }

  /** Handling one input event: decide, make the one call, pass the response on. */
  function Handle(server: Option<Server>, config: Fields, msg: Fields, reply: Reply): (o: Outcome)
    ensures server.None? ==> o == Outcome(None, Err(NoServer))
    ensures o.sent.None? <==> o.result.Err? && IsValidationError(o.result.error)
    ensures o.result.Ok? <==> o.sent.Some? && reply.HttpOk?
    ensures o.result.Ok? ==> o.result.value == msg["payload" := reply.data]
    ensures o.sent.Some? ==> ActionOf(msg, config).Str? && RequestAction(o.sent.value) == Some(ActionOf(msg, config).s)
    ensures server.Some? ==>
              var d := Decide(server.value, ActionOf(msg, config), msg);
              && o.sent == (if d.Ok? then Some(d.value) else None)
              && (d.Err? ==> o.result == Err(d.error))
  {
    if server.None? then Outcome(None, Err(NoServer))
    else
      var action := ActionOf(msg, config);
      var decision := Decide(server.value, action, msg);
      if decision.Err? then Deliver(decision, msg, reply)
      else
        DecideRoundTrip(server.value, action, msg);
        Deliver(decision, msg, reply)
  }

  /** `msg.action` wins over the configured action; an unknown action sends nothing. */
  lemma ActionPrecedence(server: Server, config: Fields, msg: Fields, reply: Reply)
    ensures var o := Handle(Some(server), config, msg, reply);
            var action := if Truthy(Field(msg, "action")) then Field(msg, "action") else Field(config, "action");
            && (o.sent.Some? ==> RequestAction(o.sent.value) == Some(action.s))
            && (!(action.Str? && action.s in Actions) ==> o == Outcome(None, Err(UnknownAction(action))))
  {
  }
}

=== FILE: run_command.dfy ===
/**
 * The run command node: posts one command to an existing run, taking the
 * run ID from the message and the command from the shared builder.
 */
module RunCommand {
  import opened Js
  import opened Wrappers
  import opened Adapter
  import opened CommandParams
  import Run

  /**
   * The decision step: the server, then the run ID, then the command type and
   * parameters are checked, in that order, before `POST /runs/{runId}/commands`.
   */
  function Decide(cx: Coercions, server: Option<Server>, msg: Fields, config: Fields): (r: Result<Request, Error>)
    ensures server.None? ==> r == Err(NoServer)
    ensures server.Some? && !Truthy(Field(msg, "runId")) && !Truthy(Get(Field(msg, "payload"), "runId")) ==>
              r == Err(RunIdRequired)
    ensures server.Some? && (Truthy(Field(msg, "runId")) || Truthy(Get(Field(msg, "payload"), "runId"))) ==>
              (r.Err? <==> BuildCommand(cx, msg, config).Err?)
              && (r.Err? ==> r.error == BuildCommand(cx, msg, config).error)
    ensures r.Ok? ==>
              && server.Some? && BuildCommand(cx, msg, config).Ok?
              && r.value == Call(server.value, POST, WithId("/runs/", Run.RunIdOf(msg), "/commands"),
                                 Some(CommandBody(BuildCommand(cx, msg, config).value)))
  {
    if server.None? then Err(NoServer)
    else
      var runId := Run.RunIdOf(msg);
      if !Truthy(runId) then Err(RunIdRequired)
      else
        match BuildCommand(cx, msg, config)
        case Err(e) => Err(e)
        case Ok(cmd) => Ok(Call(server.value, POST, WithId("/runs/", runId, "/commands"), Some(CommandBody(cmd))))
  }

  /** Handling one input event: decide, make the one call, pass the response on. */
  function Handle(cx: Coercions, server: Option<Server>, msg: Fields, config: Fields, reply: Reply): (o: Outcome)
    ensures var d := Decide(cx, server, msg, config);
            && o.sent == (if d.Ok? then Some(d.value) else None)
            && (d.Err? ==> o.result == Err(d.error))
    ensures o.sent.None? <==> o.result.Err? && IsValidationError(o.result.error)
    ensures o.sent.Some? ==>
              && o.sent.value.verb == POST && o.sent.value.path.WithId?
              && o.sent.value.path.prefix == "/runs/" && o.sent.value.path.suffix == "/commands"
              && Truthy(o.sent.value.path.id)
    ensures o.result.Ok? <==> o.sent.Some? && reply.HttpOk?
    ensures o.result.Ok? ==> o.result.value == msg["payload" := reply.data]
  {
    Deliver(Decide(cx, server, msg, config), msg, reply)
  }

  /**
   * `msg.runId` wins over `msg.payload.runId`; with neither truthy nothing is
   * posted, and the command type is looked at only once a run ID is found.
   */
  lemma RunIdPrecedence(cx: Coercions, server: Server, msg: Fields, config: Fields, reply: Reply)
    ensures var o := Handle(cx, Some(server), msg, config, reply);
            && (!Truthy(Field(msg, "runId")) && !Truthy(Get(Field(msg, "payload"), "runId")) ==>
                  o == Outcome(None, Err(RunIdRequired)))
            && (o.sent.Some? && Truthy(Field(msg, "runId")) ==> o.sent.value.path.id == Field(msg, "runId"))
            && (o.sent.Some? && !Truthy(Field(msg, "runId")) ==>
                  o.sent.value.path.id == Get(Field(msg, "payload"), "runId"))
  {
  }

  /** A command type missing from both sources is reported only after the run ID check has passed. */
  lemma CommandTypeCheckedSecond(cx: Coercions, server: Server, msg: Fields, config: Fields, reply: Reply)
    requires !Truthy(Field(msg, "commandType")) && !Truthy(Field(config, "commandType"))
    ensures Handle(cx, Some(server), msg, config, reply).result
            == Err(if Truthy(Run.RunIdOf(msg)) then CommandTypeRequired else RunIdRequired)
    ensures Handle(cx, Some(server), msg, config, reply).sent.None?
  {
  }

  /**
   * With a server, a run ID and a command that builds, the command is posted;
   * its body is `{data: {commandType, params}}` with the headers every adapter sends.
   */
  lemma PostedRequestShape(cx: Coercions, server: Server, msg: Fields, config: Fields, reply: Reply)
    requires Truthy(Run.RunIdOf(msg))
    requires BuildCommand(cx, msg, config).Ok?
    ensures Handle(cx, Some(server), msg, config, reply).sent.Some?
    ensures var req := Handle(cx, Some(server), msg, config, reply).sent.value;
            var cmd := BuildCommand(cx, msg, config).value;
            && req.body.Some?
            && Get(Get(req.body.value, "data"), "commandType") == Or(Field(msg, "commandType"), Field(config, "commandType"))
            && Get(Get(req.body.value, "data"), "params") == Obj(cmd.params)
            && req.headers["Opentrons-Version"] == Str(ApiVersion)
            && ("authenticationBearer" in req.headers <==> Truthy(server.token))
  {
  }
}

=== FILE: wrappers.dfy ===
/** Option and Result, the failure-carrying types every adapter returns. */
module Wrappers {

  datatype Option<+T> = None | Some(value: T)

  /** The outcome of a step that either yields a value or stops with an error. */
  datatype Result<+T, +E> = Ok(value: T) | Err(error: E)
}
